=== FILE: README.md ===
# Freelancer tax assistant — a Dafny model of its core

The application takes scanned invoices and receipts, has a language model
read them into a structured record, stores the records in a JSON file, and
works out an Indian freelancer's income tax. It compares presumptive
taxation under Section 44ADA (half of income is taxable) with the regular
computation (income less expenses), and reports GST, an advance-tax
schedule, a category breakdown and advice. This project models that core
as pure Dafny functions over immutable data:

- `wrappers.dfy` (`Wrappers`): `Option`.
- `text.dfy` (`Text`): the Python string operations the core relies on. These are `strip`, ASCII `lower`/`upper`, slicing, `replace` with an empty replacement, substring test, string ordering and `rsplit`/`basename`.
- `records.dfy` (`Records`): the stored transaction record and its ledger sums by type.
- `tax_calculator.dfy` (`TaxCalculator`): the bracket tax, the advance-tax schedule, method selection, the summary, the category breakdown and the advice.
- `ai_service.dfy` (`AiService`): the validation of the model's JSON reply and the keyword categoriser.
- `storage_service.dfy` (`StorageService`): record creation, lookup, delete, update, date range, monthly summary and recommendations. The store is a sequence of records, not a file.
- `routes.dfy` (`Routes`): the upload file filter, the newest-first lists of the dashboard and the transactions page, and the upload path from reply to store.

Amounts are mathematical reals. The clock, `uuid4()`, `strptime`,
`float()` and `datetime.fromisoformat` are parameters: `today`/`now`,
`id`/`stamp`, `parseDate`, `parseFloat` and `dateKey`.

The brackets start at 250000 and have no cess, rebate or
deductions. The advance-tax dates are fixed to the 2024-25 year. The
presumptive test is the code's disjunction at `tax_calculator.py:46`.

The bracket rates and the advance-tax quarters are enumerations, and a
rate times an amount is written out per rate, so the tax stays linear in
the income. The due dates are held parsed; their text and descriptions
are rendered by `DueText` and `Description`. Those dates are constants
that parse, so the `except` branch at `tax_calculator.py:127-128` is never
taken and is not modelled. `CalculateFrom` takes the slab tax as a
parameter that need only be monotone; `CalculateTaxes` passes the bracket
tax.

## Model

| member | source | states |
|---|---|---|
| Text.Strip | ai_service.py:135-137 | `str.strip()` with Python's whitespace set: the result is the input minus its maximal leading and trailing whitespace runs, and it neither starts nor ends with whitespace |
| Text.StripKeepsTrimmed | ai_service.py:135-137 | stripping a string that already has non-space ends gives it back unchanged |
| Text.Take | storage_service.py:69 | slicing `[:n]` gives the prefix of exactly min(n, len) characters, so the whole string when it is short enough |
| Text.Lower | ai_service.py:168 | `lower()` keeps the length and maps each character on its own; no upper-case ASCII letter remains |
| Text.LowerIdempotent | ai_service.py:168 | lower-casing twice is the same as lower-casing once |
| Text.Upper | ai_service.py:140 | `upper()` keeps the length and leaves no lower-case ASCII letter |
| Text.RemoveAll | ai_service.py:114 | `replace(pat, '')` never lengthens the text; a one-character pattern leaves no occurrence; text without the pattern is unchanged |
| Text.RemoveAllAddsNothing | ai_service.py:114 | every character left by `replace(pat, '')` was already in the text, as often or less |
| Text.RemoveAllAbsent | ai_service.py:114 | when the pattern's first character does not occur, the text comes back unchanged |
| Text.RemoveAllSelf | ai_service.py:114 | removing a pattern from itself leaves nothing |
| Text.RemoveAllAppend | ai_service.py:114 | when no occurrence straddles the seam, removal distributes over concatenation |
| Text.LexLeTotal | storage_service.py:203-204 | Python string ordering is total |
| Text.LexLeTransitive | storage_service.py:203-204 | Python string ordering is transitive |
| Text.LexLeAntisymmetric | storage_service.py:203-204 | Python string ordering is antisymmetric, so `min`/`max` have a unique value |
| Text.AfterLast | storage_service.py:68 | `basename` / `rsplit(c, 1)[1]`: the longest suffix without `c`, preceded by `c` when `c` occurs, and the whole string otherwise |
| Text.StripLeadingSpace | ai_service.py:114 | a leading whitespace character does not change what `strip()` returns |
| Text.ContainsPrefix | ai_service.py:179 | a string containing `w + v` contains `w` |
| Records.CountOf | tax_calculator.py:79-80 | the count of records of a type is at most the number of records |
| Records.Total | tax_calculator.py:32-33 | the sum of the amounts of a type is 0 when no record has that type |
| Records.GstTotal | tax_calculator.py:36-37 | the GST sum of a type is 0 when no record has that type, and at most the type's amount total when every GST amount is within its non-negative amount |
| Records.LedgerAppend | tax_calculator.py:32-37 | type totals, GST totals and counts add up over concatenated ledgers, and one record of the type adds its amount, its GST amount when GST applies, and 1 |
| Records.KindCountsBounded | tax_calculator.py:28-29 | the income and expense counts together never exceed the number of records |
| Records.LedgerIgnoresOtherKinds | tax_calculator.py:28-37 | a record of another type changes neither the total, the GST total nor the count of a type |
| Records.TotalNonNegative | tax_calculator.py:32-33 | with non-negative amounts, every type total is non-negative |
| Records.MonthRecords | storage_service.py:243-250 | the records kept are exactly those whose date parses into the given year and month, and no more records than the input |
| Records.MonthRecordsAppend | storage_service.py:243-250 | the month filter distributes over concatenation and keeps a single record exactly when it is in the month, so the stored order is kept |
| TaxCalculator.LevyIsProduct | tax_calculator.py:101 | the per-rate levy is the rate times the amount |
| TaxCalculator.LevyMonotone | tax_calculator.py:101 | a larger amount is never levied less at the same rate |
| TaxCalculator.LevyBounds | tax_calculator.py:6-14 | every rate of the table levies a non-negative amount between nothing and 30% of it |
| TaxCalculator.TaxBracketsWellFormed | tax_calculator.py:6-14 | the bracket limits rise strictly from 0 and only the last bracket is unbounded |
| TaxCalculator.WellFormedStep | tax_calculator.py:96-102 | in a well-formed table an unbounded bracket is the last, and after a bounded one the rest of the table is well formed from its limit up |
| TaxCalculator.BracketLoop | tax_calculator.py:96-105 | the loop charges nothing at or below its starting limit, and for a well-formed table between 0 and the top rate times the income above that limit |
| TaxCalculator.LoopMatchesSlabs | tax_calculator.py:96-105 | the bracket loop with its two early exits equals the independent sum over slabs of `rate * (part of income inside the slab)` |
| TaxCalculator.SlabSumZeroBelow | tax_calculator.py:97-98 | income at or below the lower bound attracts no slab tax |
| TaxCalculator.SlabSumMonotone | tax_calculator.py:96-105 | the slab sum never decreases as income grows |
| TaxCalculator.SlabSumBounds | tax_calculator.py:96-105 | the slab sum is between 0 and the top rate times the income above the lower bound |
| TaxCalculator.PortionMonotone | tax_calculator.py:100 | the part of income inside one slab grows with income |
| TaxCalculator.Portion | tax_calculator.py:100 | the part of income inside a slab is never negative |
| TaxCalculator.IncomeTax | tax_calculator.py:88-107 | the tax is non-negative, zero up to 250000, and at most 30% of income |
| TaxCalculator.IncomeTaxMonotone | tax_calculator.py:88-107 | more taxable income never means less tax |
| TaxCalculator.IncomeTaxAtLimits | tax_calculator.py:6-14 | tax at each bracket limit: 0, 12500, 37500, 75000, 125000, 187500, and 337500 at 20 lakh |
| TaxCalculator.CumulativeIsProduct | tax_calculator.py:114 | each quarter's cumulative amount is the annual tax times its cumulative rate |
| TaxCalculator.BuildSchedule | tax_calculator.py:113-137 | one instalment per deadline, in order; each cumulative amount is the tax times the deadline's rate, each instalment the difference from the previous cumulative amount, and overdue means today is after the due date |
| TaxCalculator.AdvanceTaxSchedule | tax_calculator.py:109-139 | four instalments with the quarters, due dates and cumulative rates of the deadline table in order; cumulative amounts of 15, 45, 75 and 100% of the tax, so the instalments are 15, 30, 30 and 25% of it and non-negative for a non-negative tax; overdue exactly when today is after the instalment's own due date |
| TaxCalculator.InstalmentsTelescope | tax_calculator.py:117-121 | the instalments sum to the last cumulative amount less what was already paid |
| TaxCalculator.InstalmentsSumToAnnualTax | tax_calculator.py:109-139 | the four instalments add up to the annual tax |
| TaxCalculator.OverdueCount | tax_calculator.py:253-256 | the count of overdue positive instalments is at most the schedule length, and positive exactly when some instalment is overdue with a positive amount |
| TaxCalculator.OverdueCountAppend | tax_calculator.py:253-256 | the count adds up over a concatenated schedule, and one instalment counts 1 exactly when it is overdue with a positive amount |
| TaxCalculator.StaleScheduleAllOverdue | tax_calculator.py:17-22 | because the due dates are fixed to 2024-25, after 15 March 2025 all four instalments of a positive tax are overdue |
| TaxCalculator.UsePresumptive | tax_calculator.py:40-46 | the two-part test holds exactly when half the income is below the regular taxable income, and equally exactly when income is negative or expenses are below half the income |
| TaxCalculator.TaxableIncome | tax_calculator.py:40-55 | the source's two-part test holds exactly when half the income is below the regular taxable income, and the taxable income picked is the smaller of the two candidates |
| TaxCalculator.IncomeTaxIsMonotone | tax_calculator.py:88-107 | the slab tax, as a function, never charges a larger income less |
| TaxCalculator.CalculateFrom | tax_calculator.py:39-82 | for any monotone slab tax: presumptive exactly when half the income is below the regular taxable income; the taxable income is the smaller candidate and its tax is at most the tax of either candidate; deductible expenses follow the method; GST liability is the positive part of collected minus paid; the savings are non-negative and exactly the regular tax minus the chosen tax when presumptive |
| TaxCalculator.CalculateTaxes | tax_calculator.py:24-82 | income and expense totals, GST totals and counts by type, the two counts within the number of records, and the calculation of `CalculateFrom` over them with the bracket tax |
| TaxCalculator.OtherKindsIgnored | tax_calculator.py:28-29 | a record that is neither income nor expense does not change the calculation |
| TaxCalculator.CategorySumsSnoc | tax_calculator.py:177-196 | appending a record adds it to its own category's count and to its income or expense sum, and to no other category |
| TaxCalculator.CategoryAbsent | tax_calculator.py:182-188 | a category no record has has zero count and sums |
| TaxCalculator.IndexOfCategory | tax_calculator.py:182 | the dict lookup finds the entry of the category, or shows it absent |
| TaxCalculator.AddToExistingEntry | tax_calculator.py:182-195 | a record of a category already present adds to that entry only, and the breakdown still describes the records seen so far |
| TaxCalculator.OpenEntry | tax_calculator.py:183-195 | a record of a new category opens one entry at the end, and the breakdown still describes the records seen so far |
| TaxCalculator.AddToBreakdownStep | tax_calculator.py:177-196 | one loop iteration keeps the breakdown an exact description of the records seen so far |
| TaxCalculator.CategoryBreakdown | tax_calculator.py:173-198 | one entry per category that occurs, none twice, each with that category's count, income sum, expense sum (every non-income type) and net = income - expense |
| TaxCalculator.SumCountsUpdate | tax_calculator.py:195 | raising one entry's count raises the total count by the same amount |
| TaxCalculator.SumCountsAppend | tax_calculator.py:183-188 | a new entry adds its count to the total count |
| TaxCalculator.BreakdownCountsAllRecords | tax_calculator.py:173-198 | the category counts add up to the number of records |
| TaxCalculator.FirstSeenStep | tax_calculator.py:176-195 | one pass of the loop keeps the entries in the order their categories first occur |
| TaxCalculator.BreakdownInFirstSeenOrder | tax_calculator.py:173-198 | the entries are in the order their categories first occur among the records, as the dict keeps insertion order |
| TaxCalculator.EmptySummary | tax_calculator.py:210-234 | the empty summary reports no data, no presumptive method, no schedule, no categories, and every amount, count, rate and margin zero |
| TaxCalculator.EmptySummaryMatchesEmptyLedger | tax_calculator.py:210-234 | the empty summary is the calculation of an empty ledger apart from the method label and the schedule, and that calculation itself would pick the regular method |
| TaxCalculator.CurrentMonthTotal | tax_calculator.py:149-157 | the current-month sum of a type equals the total of that type over the records dated in the current month |
| TaxCalculator.EffectiveTaxRate | tax_calculator.py:166 | 0 without taxable income, otherwise rate × taxable = tax × 100, and within [0, 30] when the tax is within the top rate |
| TaxCalculator.ProfitMargin | tax_calculator.py:168 | 0 without income, otherwise margin × income = net × 100 |
| TaxCalculator.GetTaxSummary | tax_calculator.py:141-171 | no records give the empty summary; otherwise the calculation, an exact category breakdown, the current-month totals, an effective rate within [0, 30], net profit = income - deductible expenses and the margin |
| TaxCalculator.MethodAdvice | tax_calculator.py:244-247 | the presumptive note appears exactly when presumptive is used, and the switch advice exactly when, in addition, expenses exceed half the income, right after the note |
| TaxCalculator.GstAndOverdueAdvice | tax_calculator.py:249-259 | the GST item exactly when there is a GST liability, then the overdue item exactly when some instalment is overdue, in that order |
| TaxCalculator.LaterAdvice | tax_calculator.py:249-262 | the GST, overdue and high-income items each exactly when its condition holds, with the actual liability and overdue count and no other item, in that order and none twice |
| TaxCalculator.JoinAdvice | tax_calculator.py:243-262 | putting the method items in front of the later items keeps each item present exactly when its condition holds, with the switch advice right after the presumptive note |
| TaxCalculator.JoinedAdviceGivable | tax_calculator.py:243-262 | every joined item is one the source appends, the GST item carrying the actual liability and the overdue item the actual count |
| TaxCalculator.JoinedAdviceInOrder | tax_calculator.py:243-262 | the joined items are in the source's append order, none twice, at most five |
| TaxCalculator.GetTaxAdvice | tax_calculator.py:240-264 | each advice item appears exactly when its condition holds; no other item appears, so the GST item carries the actual liability and the overdue item the actual count; the items are in the source's order and none twice; the switch advice follows the presumptive note; at most five items |
| TaxCalculator.SwitchAdviceNeverGiven | tax_calculator.py:244-247 | with non-negative amounts, the advice to switch to regular taxation never appears, because presumptive is only chosen when expenses are below half the income |
| AiService.Clamp01 | ai_service.py:141 | `min(1.0, max(0.0, x))` lies in [0, 1], leaves values already there unchanged, and sends values above to 1 and below to 0 |
| AiService.CleanAmountText | ai_service.py:114 | the cleaned amount text has no rupee sign and no comma; text with no marker, no comma and no rupee sign is only stripped |
| AiService.RupeeStaysOut | ai_service.py:114 | the later replacements cannot bring back a rupee sign |
| AiService.UnmarkedUntouched | ai_service.py:114 | the four replacements leave text without any marker unchanged |
| AiService.RupeePass | ai_service.py:114 | removing the rupee sign from a marked amount drops exactly that mark |
| AiService.RsPass | ai_service.py:114 | removing "Rs" from a marked amount drops exactly an "Rs" mark and keeps an "INR" mark |
| AiService.InrPass | ai_service.py:114 | removing "INR" leaves the amount body |
| AiService.CommaPass | ai_service.py:114 | removing commas joins the digit groups |
| AiService.StripPass | ai_service.py:114 | stripping drops the optional space before the digits |
| AiService.InrKeptByRsPass | ai_service.py:114 | an "INR" prefix survives the "Rs" removal when the rest does |
| AiService.NoRsAt | ai_service.py:114 | no "Rs" starts at a character other than R, or at an R not followed by s |
| AiService.CleanMarkedAmount | ai_service.py:114-116 | "₹", "Rs" or "INR", an optional space and digits grouped by a comma clean to the digits alone, ready for `float()` |
| AiService.KindOf | ai_service.py:106-108 | the type is income or expense; income exactly when the given string lower-cases to "income"; a non-string raises |
| AiService.AmountOf | ai_service.py:111-119 | the amount is never negative; missing, null or an empty list or object gives 0, a number its absolute value, a boolean 1 or 0, a string the absolute value of its cleaned text's parse (0 when that fails); only a non-empty list or object raises |
| AiService.DateOf | ai_service.py:122-132 | a date other than today is a given non-empty string that parses; such a string is always kept; a truthy non-string raises |
| AiService.GstAmountOf | ai_service.py:139 | a falsy value gives 0, a number is kept with its sign, `True` gives 1, a non-empty string is parsed; raises exactly for a truthy value that `float()` rejects |
| AiService.ConfidenceOf | ai_service.py:141 | missing gives 0.7, a boolean 1 or 0, a number or parsable string is clamped into [0, 1]; raises exactly for a value `float()` rejects |
| AiService.TextOf | ai_service.py:135-136 | the text is the stripped shown value cut to its first min(limit, len) characters, and does not start with whitespace |
| AiService.CurrencyOf | ai_service.py:140 | missing gives "INR"; otherwise the shown value upper-cased character by character, same length, with no lower-case ASCII letter left |
| AiService.CategoryOf | ai_service.py:137 | a missing category defaults by type; a given one is its shown text stripped |
| AiService.OtherBusinessTrimmed | ai_service.py:137 | the expense default category has no surrounding whitespace, so stripping keeps it |
| AiService.FreelanceIncomeTrimmed | ai_service.py:137 | the income default category has no surrounding whitespace, so stripping keeps it |
| AiService.Assemble | ai_service.py:134-146 | type, amount, date and confidence are kept; the category defaults by type when missing; a GST amount above the amount is reset with its flag, otherwise kept with the flag as given |
| AiService.ValidateFields | ai_service.py:102-148 | a record exactly when no field conversion raises; it then carries the converted type, amount, date, confidence, texts, category and currency, and is well formed: non-negative amount, GST within amount, confidence in [0, 1], text limits, upper-case currency, a parsing date or today |
| AiService.Fallback | ai_service.py:150-164 | the handler's record: expense, zero amount, today, "Unknown", "Failed to parse", other_business, no GST, INR, confidence 0.1 |
| AiService.ValidateParsedData | ai_service.py:100-164 | every record returned, the fallback included, is well formed in the same sense; when nothing raises, each field is the converted input value |
| AiService.FallbackExactlyWhenRaises | ai_service.py:150-164 | the fallback record is returned exactly on the inputs on which a field conversion raises |
| AiService.DateKeptIffItParses | ai_service.py:122-132 | outside the fallback, a date other than today came from the input and parses, and a parsing input date is kept |
| AiService.GstResetAboveAmount | ai_service.py:143-146 | outside the fallback, GST above the amount is dropped with its flag; otherwise kept with the flag as given |
| AiService.MissingCategoryDefaults | ai_service.py:137 | without a category key, expenses get other_business and income gets freelance_income |
| AiService.KindIsIncomeIff | ai_service.py:105-108 | the record is income exactly when nothing raises and the given type lower-cases to "income" |
| AiService.AnyOccursMember | ai_service.py:171 | `any(word in text …)` holds once one keyword occurs |
| AiService.FirstHitIndex | ai_service.py:170-184 | the index found is the first rule whose keywords occur, or no rule matches |
| AiService.FirstMatch | ai_service.py:170-184 | the category of the first matching rule, or the default when none matches |
| AiService.Categorize | ai_service.py:166-191 | expenses get an expense category and anything else an income category; the result is the first rule in source order with a keyword in the lower-cased description, else the default |
| AiService.CategorizeIgnoresCase | ai_service.py:168 | lower-casing the description first changes nothing |
| AiService.PhoneBillNeverUtilities | ai_service.py:173-180 | a description mentioning "phone bill" is never filed under utilities, because "phone" is an office-supplies keyword checked earlier |
| StorageService.ProcessingNotes | storage_service.py:73-81 | each note is present exactly when its condition holds, none twice, in the source's order |
| StorageService.Basename | storage_service.py:68 | absent exactly for an empty path; otherwise the part after the last separator, with no separator in it |
| StorageService.Excerpt | storage_service.py:69 | absent exactly for empty text; otherwise its first min(1000, len) characters |
| StorageService.NewTransaction | storage_service.py:55-81 | the missing keys take their defaults; the file name is the path's basename, absent for an empty path; the text is the excerpt, absent when empty; the notes follow the stored values |
| StorageService.SaveTransaction | storage_service.py:48-90 | the new record is appended at the end and the earlier records stay as they were |
| StorageService.FindIndex | storage_service.py:103-106 | the index of the first record with the id, or none exactly when no record has it |
| StorageService.GetTransactionById | storage_service.py:100-106 | the first record with the id, or none exactly when no record has it |
| StorageService.HasIdCons | storage_service.py:103-106 | a store has a record with the id exactly when its first record has it or the rest does |
| StorageService.WithoutId | storage_service.py:114 | the kept records are exactly those with another id; the length is unchanged exactly when the id is absent, and then the store is unchanged |
| StorageService.WithoutIdAppend | storage_service.py:114 | the filter distributes over concatenation and keeps a single record exactly when its id differs, so the stored order is kept |
| StorageService.DeleteTransaction | storage_service.py:108-124 | the store becomes the order-keeping filter of the other ids; true exactly when one existed, and then the store shrinks; otherwise the store is unchanged |
| StorageService.Merge | storage_service.py:134-135 | every field the patch gives overrides, every field it omits is kept, and the update is stamped; id, timestamp, file name, text and notes stay |
| StorageService.MergeEmptyPatchAndRepeat | storage_service.py:134-135 | an empty patch only stamps the record; applying the same patch twice is applying it once with the later stamp |
| StorageService.UpdateTransaction | storage_service.py:126-146 | only the first record with the id is merged; all other positions and the length are unchanged; false with the store untouched when absent |
| StorageService.LookupAfterUpdate | storage_service.py:126-146 | after an update, lookup returns the merged record |
| StorageService.LookupAfterDelete | storage_service.py:108-124 | after a delete, lookup finds nothing |
| StorageService.LookupAfterSave | storage_service.py:48-90 | a record saved under a fresh id is found by it |
| StorageService.Dates | storage_service.py:193 | the non-empty dates of the store, each from a record, none left out |
| StorageService.MinDate | storage_service.py:203 | `min` is one of the dates and not greater than any |
| StorageService.MaxDate | storage_service.py:204 | `max` is one of the dates and not smaller than any |
| StorageService.GetDateRange | storage_service.py:188-205 | no bounds exactly when no record has a date; otherwise start ≤ end, both are record dates, and every date lies between them |
| StorageService.GetMonthlySummary | storage_service.py:233-272 | the records are exactly those dated in the month; count, income and expense totals over them; net = income - expenses; all zero when none match |
| StorageService.CurrentMonthMatchesMonthlySummary | storage_service.py:233-272 | the dashboard's current-month income and expenses equal the monthly summary of the current month |
| StorageService.ExpenseRatio | storage_service.py:216 | 0 without income, otherwise ratio × income = expenses × 100 |
| StorageService.IncomeAndRatioRecommendations | storage_service.py:211-221 | incorporation exactly above 20 lakh, then the low-ratio or the high-ratio item at its threshold, in that order |
| StorageService.GstAndInvestmentRecommendations | storage_service.py:223-229 | GST registration exactly above 20 lakh with nothing collected, then the investment item exactly when the tax exceeds 50000, in that order |
| StorageService.GenerateRecommendations | storage_service.py:207-231 | each recommendation appears exactly at its threshold, in the source's order and none twice; low- and high-ratio advice exclude each other; GST registration only comes with incorporation; at most four |
| StorageService.EmptyStoreRecommendations | storage_service.py:216-219 | an empty store is only told that its expense ratio is low |
| Routes.AllowedFile | routes.py:14-17 | accepted exactly when some dot is the last dot of the name and the text after it, lower-cased, is an allowed extension |
| Routes.LastExtensionDecides | routes.py:16-17 | "invoice.tar.pdf" is accepted: only the last extension counts |
| Routes.ExtensionCaseIgnored | routes.py:16-17 | "SCAN.PNG" is accepted: the extension's case does not matter |
| Routes.LastDotUnique | routes.py:17 | a name has at most one last dot |
| Routes.AfterLastDot | routes.py:17 | `rsplit('.', 1)[1]` is the text right after a last dot of the name |
| Routes.OtherExtensionRefused | routes.py:16-17 | "pdf.exe" is refused |
| Routes.TrailingDotRefused | routes.py:16-17 | "receipt." is refused |
| Routes.NoDotRefused | routes.py:16-17 | "pdf" is refused |
| Routes.HeadDominates | routes.py:32-36 | a record no older than the inserted one and than the rest of a newest-first list may head the result of the insertion |
| Routes.PrependNewest | routes.py:32-36 | a record no older than the head of a newest-first list may be put in front |
| Routes.InsertOldest | routes.py:32-36 | a record no newer than all the others goes at the end |
| Routes.Insert | routes.py:32-36 | inserting into a newest-first list keeps it newest first and adds exactly the one record |
| Routes.SortNewestFirst | routes.py:32-36 | the sort is a permutation of its input and newest first |
| Routes.NewestFirstPrefix | routes.py:36 | a prefix of a newest-first list is newest first |
| Routes.NewestFirstTail | routes.py:32-36 | the tail of a newest-first list is newest first |
| Routes.SortKeepsSorted | routes.py:32-36 | a list already newest first is returned unchanged |
| Routes.SortIdempotent | routes.py:32-36 | sorting twice is sorting once |
| Routes.TransactionsView | routes.py:125-140 | all records, the sort of the stored records newest first, or none when a date does not parse |
| Routes.RecentTransactions | routes.py:26-49 | the first min(10, n) of the newest-first order, or none when a date does not parse; every record left out is no newer than every record shown |
| Routes.SortedSplit | routes.py:36 | cutting a newest-first list keeps the prefix newest first, loses no record between the two parts, and leaves behind nothing newer than what was kept |
| Routes.UploadedRecordWellFormed | routes.py:96-104 | a saved upload appends one record that keeps the validator's bounds: type, non-negative amount, GST within amount, confidence in [0, 1], a parsing date or today, and the no-amount note exactly at zero |

## Left out

- Floating point: amounts are reals, so rounding, NaN and infinities are not modelled. The last bracket's `float('inf')` limit is an unbounded bracket.
- Case mapping beyond ASCII: `lower()`/`upper()` change only A-Z/a-z.
- `strptime`, `float()` on text and `datetime.fromisoformat` are parameters. The model does not say which strings they accept.
- The language-model request in `parse_financial_data`, OCR, file upload and saving, the JSON file with its backup, logging, and the Flask handlers' rendering, flash messages and redirects are not modelled. These are I/O.
- `export_data`, `get_all_transactions` and `load_transactions` are not modelled. They only read or write the file.
- `format_currency` and the wording of advice and recommendations are left out. The items are an enumeration carrying their numbers.
- StorageService.GetMonthlySummary: the `"YYYY-MM"` label is not built; the year and month are returned as numbers. The source's defaults of the current year and month are supplied by the caller.
- StorageService.UpdateTransaction: the patch covers only the parsed fields. A patch that overwrites `id`, `timestamp` or other keys is not modelled.
- Routes.SortNewestFirst: stability (equal dates keep their stored order) is what the insertion does, but it is stated only for input already newest first, which comes back unchanged (`Routes.SortKeepsSorted`). Routes.TransactionsView and Routes.RecentTransactions inherit this.
- AiService.CleanAmountText: removing one marker can join its neighbours into a new marker (Python's `replace` scans once), so "Rs" or "INR" can survive. The contract states the comma and rupee sign are gone; the fully cleaned forms are stated only for the shapes of `AiService.CleanMarkedAmount`.
- Text.RemoveAllAppend: removal distributes over concatenation only when no occurrence straddles the seam (`Text.NoStraddle`); across a seam the single left-to-right scan can differ.
- TaxCalculator.CalculateTaxes: the `except` branch returning the empty summary cannot be reached with typed records, so it is not modelled.
- TaxCalculator.CategoryBreakdown: the defaults `'other'` and `'expense'` for a missing category or type do not arise, because every stored record has both keys.
- Stored records are typed. Hand-edited JSON with missing keys or non-numeric amounts is out of scope.
- Routes.RecentTransactions: the dashboard's `except` also catches failures elsewhere in the handler. Only the date-parsing failure is modelled.

=== FILE: ai_service.dfy ===
/** Normalisation of the structured invoice the language-model call returns
    (`validate_parsed_data`) and the keyword fallback categoriser
    (`categorize_transaction`). The call itself is not modelled: its output
    is any JSON object. */
module AiService {
  import opened Wrappers
  import opened Text
  import opened Records

  /** A value of the decoded JSON object, as Python holds it. */
  datatype Value =
    | Null
    | Bool(b: bool)
    | Num(n: real, text: string)          // `text`: Python's str() of the number
    | Str(s: string)
    | Composite(size: nat, text: string)  // a list or object: its length and its str()

  /** The decoded object: a dict from keys to values. */
  type Data = map<string, Value>

  /** `data.get(key, default)`. */
  function Get(data: Data, key: string, default: Value): Value {
    if key in data then data[key] else default
  }

  /** Python truthiness. */
  predicate Truthy(v: Value) {
    match v
    case Null => false
    case Bool(b) => b
    case Num(n, _) => n != 0.0
    case Str(s) => s != []
    case Composite(size, _) => size > 0
  }

  /** Python's `str(v)`. */
  function Show(v: Value): string {
    match v
    case Null => "None"
    case Bool(b) => if b then "True" else "False"
    case Num(_, text) => text
    case Str(s) => s
    case Composite(_, text) => text
  }

  /** Python's `float(v)`; `None` where it raises. `parseFloat` is `float()`
      on text. */
  function ToFloat(v: Value, parseFloat: string -> Option<real>): Option<real> {
    match v
    case Null => None
    case Bool(b) => Some(if b then 1.0 else 0.0)
    case Num(n, _) => Some(n)
    case Str(s) => parseFloat(s)
    case Composite(_, _) => None
  }

  function Abs(x: real): real { if x < 0.0 then -x else x }

  function Clamp01(x: real): (r: real)
    ensures 0.0 <= r <= 1.0
    ensures 0.0 <= x <= 1.0 ==> r == x
    ensures x > 1.0 ==> r == 1.0
    ensures x < 0.0 ==> r == 0.0
  {
    if x > 1.0 then 1.0 else if x < 0.0 then 0.0 else x
  }

  /** The validated record: every key present and of the expected type. */
  datatype Validated = Validated(
    kind: string,
    amount: real,
    date: string,
    clientVendor: string,
    description: string,
    category: string,
    gstApplicable: bool,
    gstAmount: real,
    currency: string,
    confidence: real)

  /** The record as the partial dict the store receives. */
  function AsFields(v: Validated): Fields {
    Fields(Some(v.kind), Some(v.amount), Some(v.date), Some(v.clientVendor), Some(v.description),
           Some(v.category), Some(v.gstApplicable), Some(v.gstAmount), Some(v.currency), Some(v.confidence))
  }

  const Rupee: string := "\U{20B9}"

  /** The currency marks and thousands separators removed from a textual
      amount, in the source's order, then the surrounding whitespace. */
  function CleanAmountText(s: string): (r: string)
    ensures '\U{20B9}' !in r && ',' !in r
    ensures '\U{20B9}' !in s && ',' !in s && !Contains(s, "Rs") && !Contains(s, "INR") ==> r == Strip(s)
  {
    var noRupee := RemoveAll(s, Rupee);
    RupeeStaysOut(noRupee);
    UnmarkedUntouched(s);
    Strip(RemoveAll(RemoveAll(RemoveAll(noRupee, "Rs"), "INR"), ","))
  }

  /** The later passes only delete, so no rupee sign comes back. */
  lemma RupeeStaysOut(t: string)
    requires '\U{20B9}' !in t
    ensures '\U{20B9}' !in RemoveAll(RemoveAll(RemoveAll(t, "Rs"), "INR"), ",")
  {
    var noRs := RemoveAll(t, "Rs");
    var noInr := RemoveAll(noRs, "INR");
    var noComma := RemoveAll(noInr, ",");
    assert multiset(t)['\U{20B9}'] == 0;
    RemoveAllAddsNothing(t, "Rs");
    RemoveAllAddsNothing(noRs, "INR");
    RemoveAllAddsNothing(noInr, ",");
    assert multiset(noComma)['\U{20B9}'] == 0;
  }

  /** Text without any of the marks or a comma passes every removal as it is. */
  lemma UnmarkedUntouched(s: string)
    ensures '\U{20B9}' !in s && ',' !in s && !Contains(s, "Rs") && !Contains(s, "INR") ==>
      RemoveAll(RemoveAll(RemoveAll(RemoveAll(s, Rupee), "Rs"), "INR"), ",") == s
  {
    if '\U{20B9}' !in s && ',' !in s {
      RemoveAllAbsent(s, Rupee);
      RemoveAllAbsent(s, ",");
    }
  }

  predicate IsNumeralChar(c: char) {
    '0' <= c <= '9' || c == '.'
  }

  /** Digits and decimal points only. */
  predicate Numeral(s: string) {
    |s| > 0 && forall k :: 0 <= k < |s| ==> IsNumeralChar(s[k])
  }

  /** What may follow the currency mark: spaces, commas and numeral characters. */
  predicate AmountBody(rest: string) {
    forall k :: 0 <= k < |rest| ==> rest[k] == ' ' || rest[k] == ',' || IsNumeralChar(rest[k])
  }

  predicate IsMark(mark: string) {
    mark == Rupee || mark == "Rs" || mark == "INR"
  }

  /** The rupee-sign pass removes a leading rupee sign and nothing else. */
  lemma RupeePass(mark: string, rest: string)
    requires IsMark(mark) && AmountBody(rest)
    ensures RemoveAll(mark + rest, Rupee) == (if mark == Rupee then rest else mark + rest)
  {
    assert '\U{20B9}' !in rest;
    if mark == Rupee {
      RemoveAllLeading(Rupee, rest);
      RemoveAllAbsent(rest, Rupee);
    } else {
      assert '\U{20B9}' !in mark;
      RemoveAllAbsent(mark + rest, Rupee);
    }
  }

  /** The "Rs" pass removes a leading "Rs" and leaves "INR" alone. */
  lemma RsPass(mark: string, rest: string)
    requires IsMark(mark) && AmountBody(rest) && rest != []
    ensures RemoveAll(if mark == Rupee then rest else mark + rest, "Rs") == (if mark == "INR" then mark + rest else rest)
  {
    assert 'R' !in rest;
    RemoveAllAbsent(rest, "Rs");
    if mark == "Rs" {
      RemoveAllLeading("Rs", rest);
    } else if mark == "INR" {
      InrKeptByRsPass(rest);
    }
  }

  /** The "INR" pass removes a leading "INR". */
  lemma InrPass(mark: string, rest: string)
    requires IsMark(mark) && AmountBody(rest)
    ensures RemoveAll(if mark == "INR" then mark + rest else rest, "INR") == rest
  {
    assert 'I' !in rest;
    RemoveAllAbsent(rest, "INR");
    if mark == "INR" {
      RemoveAllLeading("INR", rest);
    }
  }

  /** The comma pass removes the one comma. */
  lemma CommaPass(head: string, b: string)
    requires ',' !in head && ',' !in b
    ensures RemoveAll(head + "," + b, ",") == head + b
  {
    assert head + "," + b == head + ("," + b);
    RemoveAllAppend(head, "," + b, ",");
    RemoveAllAbsent(head, ",");
    RemoveAllLeading(",", b);
    RemoveAllAbsent(b, ",");
  }

  /** The strip removes the optional space and nothing else. */
  lemma StripPass(sep: string, digits: string)
    requires sep == "" || sep == " "
    requires Numeral(digits)
    ensures Strip(sep + digits) == digits
  {
    assert !IsSpace(digits[0]) && !IsSpace(digits[|digits| - 1]);
    StripKeepsTrimmed(digits);
    if sep == " " {
      assert sep + digits == [' '] + digits;
      StripLeadingSpace(' ', digits);
    } else {
      assert sep + digits == digits;
    }
  }

  /** An amount written with any of the three currency marks, an optional
      space and one thousands comma cleans to its bare digits. */
  lemma CleanMarkedAmount(mark: string, sep: string, a: string, b: string)
    requires IsMark(mark)
    requires sep == "" || sep == " "
    requires Numeral(a) && Numeral(b)
    ensures CleanAmountText(mark + sep + a + "," + b) == a + b
  {
    var head := sep + a;
    var rest := head + "," + b;
    assert mark + sep + a + "," + b == mark + rest;
    assert AmountBody(rest) by {
      forall k | 0 <= k < |rest| ensures rest[k] == ' ' || rest[k] == ',' || IsNumeralChar(rest[k]) {
        if k < |sep| {
          assert rest[k] == sep[k];
        } else if k < |head| {
          assert rest[k] == a[k - |sep|];
        } else if k > |head| {
          assert rest[k] == b[k - |head| - 1];
        }
      }
    }
    assert ',' !in head by {
      assert forall k :: 0 <= k < |head| ==> head[k] == rest[k];
    }
    assert ',' !in b;
    RupeePass(mark, rest);
    RsPass(mark, rest);
    InrPass(mark, rest);
    CommaPass(head, b);
    ConcatAssociative(sep, a, b);
    assert Numeral(a + b) by {
      assert forall k :: 0 <= k < |a + b| ==> (a + b)[k] == (if k < |a| then a[k] else b[k - |a|]);
    }
    StripPass(sep, a + b);
  }

  /** The "Rs" pass does not touch the "INR" mark when a space or a digit
      follows it. */
  lemma InrKeptByRsPass(rest: string)
    requires RemoveAll(rest, "Rs") == rest
    requires rest != [] && rest[0] != 's'
    ensures RemoveAll("INR" + rest, "Rs") == "INR" + rest
  {
    var r := ['R'] + rest;
    var nr := ['N'] + r;
    NoRsAt('R', rest);
    RemoveAllKeeps('R', rest, "Rs");
    NoRsAt('N', r);
    RemoveAllKeeps('N', r, "Rs");
    NoRsAt('I', nr);
    RemoveAllKeeps('I', nr, "Rs");
    assert "INR" + rest == ['I'] + nr;
  }

  /** No "Rs" starts at `c` unless `c` is an R followed by an s. */
  lemma NoRsAt(c: char, t: string)
    requires c != 'R' || (t != [] && t[0] != 's')
    ensures !StartsWith([c] + t, "Rs")
  {
    var s := [c] + t;
    if |s| >= 2 {
      assert s[..2][0] == c && s[..2][1] == t[0];
    }
  }

  /** The `type` key lower-cased; anything but income becomes expense. A
      non-string raises (no `.lower()`). */
  function KindOf(data: Data): (r: Option<string>)
    ensures r.Some? ==> r.value == "income" || r.value == "expense"
    ensures r.None? <==> "type" in data && !data["type"].Str?
    ensures r == Some("income") <==> "type" in data && data["type"].Str? && Lower(data["type"].s) == "income"
  {
    match Get(data, "type", Str("expense"))
    case Str(s) => var k := Lower(s); Some(if k == "income" || k == "expense" then k else "expense")
    case _ => None
  }

  /** The `amount` key: text is cleaned and parsed, unparsable text counts as
      0, a falsy value is 0, anything else is `abs(float(v))`. */
  function AmountOf(data: Data, parseFloat: string -> Option<real>): (r: Option<real>)
    ensures r.Some? ==> r.value >= 0.0
    ensures r.None? <==> "amount" in data && data["amount"].Composite? && data["amount"].size > 0
    ensures "amount" !in data || data["amount"].Null? ==> r == Some(0.0)
    ensures "amount" in data && data["amount"].Num? ==> r == Some(Abs(data["amount"].n))
    ensures "amount" in data && data["amount"].Bool? ==> r == Some(if data["amount"].b then 1.0 else 0.0)
    ensures "amount" in data && data["amount"].Composite? && data["amount"].size == 0 ==> r == Some(0.0)
    ensures "amount" in data && data["amount"].Str? ==>
      r == Some(Abs(parseFloat(CleanAmountText(data["amount"].s)).GetOr(0.0)))
  {
    match Get(data, "amount", Num(0.0, "0"))
    case Str(s) => Some(Abs(parseFloat(CleanAmountText(s)).GetOr(0.0)))
    case v =>
      if !Truthy(v) then Some(0.0)
      else
        match ToFloat(v, parseFloat)
        case Some(x) => Some(Abs(x))
        case None => None
  }

  /** The `date` key: kept when it parses as YYYY-MM-DD, today otherwise; a
      truthy non-string raises a TypeError the inner handler does not catch. */
  function DateOf(data: Data, today: string, parseDate: string -> Option<Date>): (r: Option<string>)
    ensures r.None? <==> "date" in data && Truthy(data["date"]) && !data["date"].Str?
    ensures r.Some? && r.value != today ==>
      "date" in data && data["date"] == Str(r.value) && r.value != [] && parseDate(r.value).Some?
    ensures "date" in data && data["date"].Str? && data["date"].s != [] && parseDate(data["date"].s).Some? ==>
      r == Some(data["date"].s)
  {
    var v := Get(data, "date", Str(""));
    if !Truthy(v) then Some(today)
    else
      match v
      case Str(s) => Some(if parseDate(s).Some? then s else today)
      case _ => None
  }

  /** The `gst_amount` key: `float(v)` when truthy, else 0 (not made
      non-negative). */
  function GstAmountOf(data: Data, parseFloat: string -> Option<real>): (r: Option<real>)
    ensures r.None? <==> (
      && "gst_amount" in data && Truthy(data["gst_amount"])
      && (data["gst_amount"].Composite? || (data["gst_amount"].Str? && parseFloat(data["gst_amount"].s).None?)))
    ensures !Truthy(Get(data, "gst_amount", Null)) ==> r == Some(0.0)
    ensures "gst_amount" in data && data["gst_amount"].Num? ==> r == Some(data["gst_amount"].n)
    ensures "gst_amount" in data && data["gst_amount"].Bool? ==> r == Some(if data["gst_amount"].b then 1.0 else 0.0)
    ensures "gst_amount" in data && data["gst_amount"].Str? && data["gst_amount"].s != [] ==>
      r == parseFloat(data["gst_amount"].s)
  {
    var v := Get(data, "gst_amount", Null);
    if Truthy(v) then ToFloat(v, parseFloat) else Some(0.0)
  }

  /** The `confidence` key, default 0.7, clamped into [0, 1]. */
  function ConfidenceOf(data: Data, parseFloat: string -> Option<real>): (r: Option<real>)
    ensures r.Some? ==> 0.0 <= r.value <= 1.0
    ensures r.None? <==> (
      && "confidence" in data
      && (data["confidence"].Null? || data["confidence"].Composite? ||
          (data["confidence"].Str? && parseFloat(data["confidence"].s).None?)))
    ensures "confidence" !in data ==> r == Some(0.7)
    ensures "confidence" in data && data["confidence"].Num? ==> r == Some(Clamp01(data["confidence"].n))
    ensures "confidence" in data && data["confidence"].Bool? ==> r == Some(if data["confidence"].b then 1.0 else 0.0)
    ensures "confidence" in data && data["confidence"].Str? && parseFloat(data["confidence"].s).Some? ==>
      r == Some(Clamp01(parseFloat(data["confidence"].s).value))
  {
    var c :- ToFloat(Get(data, "confidence", Num(0.7, "0.7")), parseFloat);
    Some(Clamp01(c))
  }

  /** `str(data.get(key, default)).strip()[:limit]`. */
  function TextOf(data: Data, key: string, default: string, limit: nat): (r: string)
    ensures var t := Strip(Show(Get(data, key, Str(default))));
      && |r| == (if |t| < limit then |t| else limit)
      && r == t[..|r|]
    ensures r == [] || !IsSpace(r[0])
  {
    Take(Strip(Show(Get(data, key, Str(default)))), limit)
  }

  predicate NoAsciiLower(s: string) {
    forall k :: 0 <= k < |s| ==> !IsAsciiLower(s[k])
  }

  /** What every record leaving the validator satisfies. */
  predicate WellFormed(v: Validated, today: string, parseDate: string -> Option<Date>) {
    && (v.kind == "income" || v.kind == "expense")
    && v.amount >= 0.0
    && v.gstAmount <= v.amount
    && 0.0 <= v.confidence <= 1.0
    && |v.clientVendor| <= 100 && |v.description| <= 200
    && (v.clientVendor == [] || !IsSpace(v.clientVendor[0]))
    && (v.description == [] || !IsSpace(v.description[0]))
    && NoAsciiLower(v.currency)
    && (v.date == today || parseDate(v.date).Some?)
  }

  /** `str(data.get('currency', 'INR')).upper()`. */
  function CurrencyOf(data: Data): (r: string)
    ensures NoAsciiLower(r)
    ensures "currency" !in data ==> r == "INR"
    ensures var given := Show(Get(data, "currency", Str("INR")));
      && |r| == |given|
      && forall k :: 0 <= k < |r| ==> r[k] == UpperChar(given[k])
  {
    var r := Upper(Show(Get(data, "currency", Str("INR"))));
    assert "currency" !in data ==> r == "INR" by {
      if "currency" !in data {
        assert r[0] == 'I' && r[1] == 'N' && r[2] == 'R';
      }
    }
    r
  }

  /** `str(data.get('category', default)).strip()`, where the default
      follows the type. */
  function CategoryOf(data: Data, kind: string): (r: string)
    ensures "category" !in data ==> r == (if kind == "expense" then "other_business" else "freelance_income")
    ensures "category" in data && data["category"].Str? ==> r == Strip(data["category"].s)
    ensures "category" in data ==> r == Strip(Show(data["category"]))
  {
    var defaultCategory := if kind == "expense" then "other_business" else "freelance_income";
    var r := Strip(Show(Get(data, "category", Str(defaultCategory))));
    assert "category" !in data ==> r == defaultCategory by {
      if "category" !in data {
        assert Show(Get(data, "category", Str(defaultCategory))) == defaultCategory;
        if kind == "expense" { OtherBusinessTrimmed(); } else { FreelanceIncomeTrimmed(); }
      }
    }
    r
  }

  /** The expense default has no surrounding whitespace, so `strip()` keeps it. */
  lemma OtherBusinessTrimmed()
    ensures Strip("other_business") == "other_business"
  {
    var s := "other_business";
    assert !IsSpace(s[0]) && !IsSpace(s[|s| - 1]);
    StripKeepsTrimmed(s);
  }

  /** The income default has no surrounding whitespace, so `strip()` keeps it. */
  lemma FreelanceIncomeTrimmed()
    ensures Strip("freelance_income") == "freelance_income"
  {
    var s := "freelance_income";
    assert !IsSpace(s[0]) && !IsSpace(s[|s| - 1]);
    StripKeepsTrimmed(s);
  }

  /** The record the `try` block builds once every key has converted. */
  function Assemble(data: Data, kind: string, amount: real, date: string, gst: real, confidence: real): (r: Validated)
    ensures r.kind == kind && r.amount == amount && r.date == date && r.confidence == confidence
    ensures "category" !in data ==> r.category == (if kind == "expense" then "other_business" else "freelance_income")
    ensures gst > amount ==> r.gstAmount == 0.0 && !r.gstApplicable
    ensures gst <= amount ==> r.gstAmount == gst && r.gstApplicable == Truthy(Get(data, "gst_applicable", Bool(false)))
  {
    var tooMuchGst := gst > amount;
    Validated(
      kind,
      amount,
      date,
      TextOf(data, "client_vendor", "Unknown", 100),
      TextOf(data, "description", "Transaction", 200),
      CategoryOf(data, kind),
      if tooMuchGst then false else Truthy(Get(data, "gst_applicable", Bool(false))),
      if tooMuchGst then 0.0 else gst,
      CurrencyOf(data),
      confidence)
  }

  /** The body of the `try` block; `None` when any conversion raises. Every
      exception leads to the same handler, so the order of the steps does
      not matter. */
  function ValidateFields(data: Data, today: string, parseFloat: string -> Option<real>,
                          parseDate: string -> Option<Date>): (r: Option<Validated>)
    ensures r.Some? ==> WellFormed(r.value, today, parseDate)
    ensures r.Some? <==>
      && KindOf(data).Some? && AmountOf(data, parseFloat).Some? && DateOf(data, today, parseDate).Some?
      && GstAmountOf(data, parseFloat).Some? && ConfidenceOf(data, parseFloat).Some?
    ensures r.Some? ==>
      && r.value.kind == KindOf(data).value
      && r.value.amount == AmountOf(data, parseFloat).value
      && r.value.date == DateOf(data, today, parseDate).value
      && r.value.confidence == ConfidenceOf(data, parseFloat).value
    ensures r.Some? ==>
      && r.value.clientVendor == TextOf(data, "client_vendor", "Unknown", 100)
      && r.value.description == TextOf(data, "description", "Transaction", 200)
      && r.value.category == CategoryOf(data, r.value.kind)
      && r.value.currency == CurrencyOf(data)
  {
    var kind := KindOf(data);
    var amount := AmountOf(data, parseFloat);
    var date := DateOf(data, today, parseDate);
    var gst := GstAmountOf(data, parseFloat);
    var confidence := ConfidenceOf(data, parseFloat);
    if kind.None? || amount.None? || date.None? || gst.None? || confidence.None? then None
    else
      var v := Assemble(data, kind.value, amount.value, date.value, gst.value, confidence.value);
      assert v.gstAmount <= v.amount;
      assert v.kind == "income" || v.kind == "expense";
      Some(v)
  }

  /** The record returned from the exception handler. */
  function Fallback(today: string): (r: Validated)
    ensures r.kind == "expense" && r.amount == 0.0 && r.date == today
    ensures r.clientVendor == "Unknown" && r.description == "Failed to parse" && r.category == "other_business"
    ensures !r.gstApplicable && r.gstAmount == 0.0 && r.currency == "INR" && r.confidence == 0.1
  {
    Validated("expense", 0.0, today, "Unknown", "Failed to parse", "other_business", false, 0.0, "INR", 0.1)
  }

  /** `validate_parsed_data` with the clock and the parsing primitives passed
      in: whatever the input, the result is a well-formed record. */
  function ValidateParsedData(data: Data, today: string, parseFloat: string -> Option<real>,
                              parseDate: string -> Option<Date>): (r: Validated)
    ensures r.kind == "income" || r.kind == "expense"
    ensures r.amount >= 0.0
    ensures r.gstAmount <= r.amount
    ensures 0.0 <= r.confidence <= 1.0
    ensures |r.clientVendor| <= 100 && |r.description| <= 200
    ensures r.clientVendor == [] || !IsSpace(r.clientVendor[0])
    ensures r.description == [] || !IsSpace(r.description[0])
    ensures NoAsciiLower(r.currency)
    ensures r.date == today || parseDate(r.date).Some?
    ensures !Raises(data, parseFloat) ==>
      && r.kind == KindOf(data).value
      && r.amount == AmountOf(data, parseFloat).value
      && r.date == DateOf(data, today, parseDate).value
      && r.confidence == ConfidenceOf(data, parseFloat).value
    ensures !Raises(data, parseFloat) ==>
      && r.clientVendor == TextOf(data, "client_vendor", "Unknown", 100)
      && r.description == TextOf(data, "description", "Transaction", 200)
      && r.category == CategoryOf(data, r.kind)
      && r.currency == CurrencyOf(data)
  {
    assert WellFormed(Fallback(today), today, parseDate);
    match ValidateFields(data, today, parseFloat, parseDate)
    case Some(v) => v
    case None => Fallback(today)
  }

  /** The inputs on which the source's `try` block raises, key by key: a
      non-string type, a non-empty list or object as amount, a truthy
      non-string date, a GST amount or a confidence that `float()` rejects. */
  predicate Raises(data: Data, parseFloat: string -> Option<real>) {
    || ("type" in data && !data["type"].Str?)
    || ("amount" in data && data["amount"].Composite? && data["amount"].size > 0)
    || ("date" in data && Truthy(data["date"]) && !data["date"].Str?)
    || ("gst_amount" in data && Truthy(data["gst_amount"]) &&
        (data["gst_amount"].Composite? || (data["gst_amount"].Str? && parseFloat(data["gst_amount"].s).None?)))
    || ("confidence" in data &&
        (data["confidence"].Null? || data["confidence"].Composite? ||
         (data["confidence"].Str? && parseFloat(data["confidence"].s).None?)))
  }

  /** The fallback record is produced exactly on those inputs. */
  lemma FallbackExactlyWhenRaises(data: Data, today: string, parseFloat: string -> Option<real>,
                                  parseDate: string -> Option<Date>)
    ensures ValidateFields(data, today, parseFloat, parseDate).None? <==> Raises(data, parseFloat)
    ensures Raises(data, parseFloat) ==> ValidateParsedData(data, today, parseFloat, parseDate) == Fallback(today)
  {
  }

  /** Outside the fallback, a date other than today's is one the input gave
      as a non-empty string that parses, and such a string is always kept. */
  lemma DateKeptIffItParses(data: Data, today: string, parseFloat: string -> Option<real>,
                            parseDate: string -> Option<Date>)
    requires !Raises(data, parseFloat)
    ensures var r := ValidateParsedData(data, today, parseFloat, parseDate);
      && (r.date != today ==> "date" in data && data["date"] == Str(r.date) && parseDate(r.date).Some?)
      && ("date" in data && data["date"].Str? && data["date"].s != [] && parseDate(data["date"].s).Some? ==>
            r.date == data["date"].s)
  {
    FallbackExactlyWhenRaises(data, today, parseFloat, parseDate);
  }

  /** A GST amount above the amount is dropped together with the GST flag;
      one within it is kept with the flag as given. */
  lemma GstResetAboveAmount(data: Data, today: string, parseFloat: string -> Option<real>,
                            parseDate: string -> Option<Date>)
    requires !Raises(data, parseFloat)
    ensures var r := ValidateParsedData(data, today, parseFloat, parseDate);
      var gst := GstAmountOf(data, parseFloat).value;
      && (gst > r.amount ==> r.gstAmount == 0.0 && !r.gstApplicable)
      && (gst <= r.amount ==> r.gstAmount == gst && r.gstApplicable == Truthy(Get(data, "gst_applicable", Bool(false))))
  {
    FallbackExactlyWhenRaises(data, today, parseFloat, parseDate);
  }

  /** Without a `category` key, expenses default to other_business and income
      to freelance_income (the fallback is an expense in other_business). */
  lemma MissingCategoryDefaults(data: Data, today: string, parseFloat: string -> Option<real>,
                                parseDate: string -> Option<Date>)
    requires "category" !in data
    ensures var r := ValidateParsedData(data, today, parseFloat, parseDate);
      r.category == (if r.kind == "expense" then "other_business" else "freelance_income")
  {
    var v := ValidateFields(data, today, parseFloat, parseDate);
    if v.Some? {
      var kind := KindOf(data).value;
      assert v.value == Assemble(data, kind, AmountOf(data, parseFloat).value, DateOf(data, today, parseDate).value,
                                 GstAmountOf(data, parseFloat).value, ConfidenceOf(data, parseFloat).value);
    }
  }

  /** The type is income exactly when the given `type` lower-cases to
      "income" and nothing raises. */
  lemma KindIsIncomeIff(data: Data, today: string, parseFloat: string -> Option<real>,
                        parseDate: string -> Option<Date>)
    ensures ValidateParsedData(data, today, parseFloat, parseDate).kind == "income"
      <==> !Raises(data, parseFloat) && "type" in data && data["type"].Str? && Lower(data["type"].s) == "income"
  {
    FallbackExactlyWhenRaises(data, today, parseFloat, parseDate);
    var v := ValidateFields(data, today, parseFloat, parseDate);
    if v.Some? {
      assert v.value == Assemble(data, KindOf(data).value, AmountOf(data, parseFloat).value,
                                 DateOf(data, today, parseDate).value, GstAmountOf(data, parseFloat).value,
                                 ConfidenceOf(data, parseFloat).value);
    }
  }

  // ---------------------------------------------------------------------
  // Keyword categoriser
  // ---------------------------------------------------------------------

  /** A category and the keywords that select it. */
  datatype Rule = Rule(category: string, keywords: seq<string>)

  /** The expense rules in the order the source tests them. */
  const ExpenseRules: seq<Rule> := [
    Rule("business_travel", ["travel", "taxi", "uber", "flight", "hotel"]),
    Rule("office_supplies", ["software", "laptop", "computer", "phone", "equipment"]),
    Rule("professional_services", ["legal", "accounting", "consultant"]),
    Rule("marketing", ["advertising", "marketing", "promotion"]),
    Rule("utilities", ["internet", "electricity", "phone bill", "utility"]),
    Rule("rent", ["rent", "office space"])
  ]

  /** The income rules in the order the source tests them. */
  const IncomeRules: seq<Rule> := [
    Rule("consulting", ["consulting", "consultation"]),
    Rule("royalty", ["royalty", "licensing"])
  ]

  const ExpenseCategories: set<string> :=
    {"business_travel", "office_supplies", "professional_services", "marketing", "utilities", "rent", "other_business"}

  const IncomeCategories: set<string> := {"consulting", "royalty", "freelance_income"}

  /** `any(word in text for word in words)`. */
  predicate AnyOccurs(text: string, words: seq<string>) {
    |words| > 0 && (Contains(text, words[0]) || AnyOccurs(text, words[1..]))
  }

  lemma {:induction false} AnyOccursMember(text: string, words: seq<string>, k: nat)
    requires k < |words| && Contains(text, words[k])
    ensures AnyOccurs(text, words)
    decreases k
  {
    if k > 0 {
      AnyOccursMember(text, words[1..], k - 1);
    }
  }

  /** Rule `i` is the first whose keywords occur in `text`. */
  predicate FirstHit(rules: seq<Rule>, text: string, i: int) {
    && 0 <= i < |rules|
    && AnyOccurs(text, rules[i].keywords)
    && forall j :: 0 <= j < i ==> !AnyOccurs(text, rules[j].keywords)
  }

  /** The index of the first rule that fires, if any. */
  function FirstHitIndex(rules: seq<Rule>, text: string): (r: Option<nat>)
    ensures r.Some? ==> FirstHit(rules, text, r.value)
    ensures r.None? ==> forall j :: 0 <= j < |rules| ==> !AnyOccurs(text, rules[j].keywords)
    decreases |rules|
  {
    if |rules| == 0 then None
    else if AnyOccurs(text, rules[0].keywords) then Some(0)
    else
      match FirstHitIndex(rules[1..], text)
      case Some(i) => assert FirstHit(rules, text, i + 1); Some(i + 1)
      case None => None
  }

  /** The category of the first rule that fires, else `default`. */
  function FirstMatch(rules: seq<Rule>, text: string, default: string): (r: string)
    ensures (exists i :: FirstHit(rules, text, i) && r == rules[i].category)
      || (r == default && forall j :: 0 <= j < |rules| ==> !AnyOccurs(text, rules[j].keywords))
  {
    match FirstHitIndex(rules, text)
    case Some(i) => rules[i].category
    case None => default
  }

  /** `categorize_transaction`: the description is lower-cased, expenses use
      the expense rules and every other type the income rules; the first rule
      whose keyword occurs wins. */
  function Categorize(description: string, kind: string): (r: string)
    ensures kind == "expense" ==> r in ExpenseCategories
    ensures kind != "expense" ==> r in IncomeCategories
    ensures kind == "expense" ==>
      (exists i :: FirstHit(ExpenseRules, Lower(description), i) && r == ExpenseRules[i].category)
      || (r == "other_business" && forall j :: 0 <= j < |ExpenseRules| ==> !AnyOccurs(Lower(description), ExpenseRules[j].keywords))
    ensures kind != "expense" ==>
      (exists i :: FirstHit(IncomeRules, Lower(description), i) && r == IncomeRules[i].category)
      || (r == "freelance_income" && forall j :: 0 <= j < |IncomeRules| ==> !AnyOccurs(Lower(description), IncomeRules[j].keywords))
  {
    var text := Lower(description);
    if kind == "expense" then FirstMatch(ExpenseRules, text, "other_business")
    else FirstMatch(IncomeRules, text, "freelance_income")
  }

  /** Matching ignores case. */
  lemma CategorizeIgnoresCase(description: string, kind: string)
    ensures Categorize(Lower(description), kind) == Categorize(description, kind)
  {
    LowerIdempotent(description);
  }

  /** Source order decides overlaps: "phone" is an office-supplies keyword
      checked before the utilities keyword "phone bill", so a description
      mentioning a phone bill is never filed under utilities. */
  lemma PhoneBillNeverUtilities(description: string)
    requires Contains(Lower(description), "phone bill")
    ensures Categorize(description, "expense") in {"business_travel", "office_supplies"}
  {
    var text := Lower(description);
    assert "phone bill" == "phone" + " bill";
    ContainsPrefix(text, "phone", " bill");
    AnyOccursMember(text, ExpenseRules[1].keywords, 3);
  }
}

=== FILE: records.dfy ===
/** The stored transaction record and the ledger sums every component
    computes over a list of them. */
module Records {
  import opened Wrappers

  /** A calendar date, as `datetime.date` holds it. */
  datatype Date = Date(year: int, month: int, day: int)

  /** Chronological order on dates (Python's `a < b` on `date` objects). */
  predicate Before(a: Date, b: Date) {
    || a.year < b.year
    || (a.year == b.year && (a.month < b.month || (a.month == b.month && a.day < b.day)))
  }

  /** One stored transaction (a dict in the JSON store; `type` is a Dafny
      keyword, so the field is called `kind`). */
  datatype Transaction = Transaction(
    id: string,
    timestamp: string,
    kind: string,
    amount: real,
    date: string,
    clientVendor: string,
    description: string,
    category: string,
    gstApplicable: bool,
    gstAmount: real,
    currency: string,
    confidence: real,
    originalFilename: Option<string>,
    extractedText: Option<string>,
    processingNotes: seq<string>,
    lastUpdated: Option<string>)

  /** The parsed-invoice keys a caller's dict may or may not carry: the input
      of a new record, and the patch of an update. */
  datatype Fields = Fields(
    kind: Option<string>,
    amount: Option<real>,
    date: Option<string>,
    clientVendor: Option<string>,
    description: Option<string>,
    category: Option<string>,
    gstApplicable: Option<bool>,
    gstAmount: Option<real>,
    currency: Option<string>,
    confidence: Option<real>)

  /** `sum(t['amount'] for t in ts if t['type'] == kind)`. */
  function Total(ts: seq<Transaction>, kind: string): (r: real)
    ensures CountOf(ts, kind) == 0 ==> r == 0.0
  {
    if |ts| == 0 then 0.0
    else (if ts[0].kind == kind then ts[0].amount else 0.0) + Total(ts[1..], kind)
  }

  /** Each record's GST lies within its non-negative amount, as validation
      leaves it. */
  predicate GstWithinAmounts(ts: seq<Transaction>) {
    forall k :: 0 <= k < |ts| ==> 0.0 <= ts[k].amount && ts[k].gstAmount <= ts[k].amount
  }

  /** `sum(t['gst_amount'] for t in ts if t['type'] == kind and t['gst_applicable'])`:
      nothing without records of the type, and never more than the type's
      total when each GST lies within its amount. */
  function GstTotal(ts: seq<Transaction>, kind: string): (r: real)
    ensures CountOf(ts, kind) == 0 ==> r == 0.0
    ensures GstWithinAmounts(ts) ==> r <= Total(ts, kind)
  {
    if |ts| == 0 then 0.0
    else
      assert GstWithinAmounts(ts) ==> GstWithinAmounts(ts[1..]) by {
        assert forall k :: 0 <= k < |ts| - 1 ==> ts[1..][k] == ts[k + 1];
      }
      (if ts[0].kind == kind && ts[0].gstApplicable then ts[0].gstAmount else 0.0) + GstTotal(ts[1..], kind)
  }

  /** `len([t for t in ts if t['type'] == kind])`. */
  function CountOf(ts: seq<Transaction>, kind: string): (n: nat)
    ensures n <= |ts|
  {
    if |ts| == 0 then 0 else (if ts[0].kind == kind then 1 else 0) + CountOf(ts[1..], kind)
  }

  /** Totals over a concatenation are the sums of the parts, and a single
      record of the type adds its amount, its GST amount when GST applies,
      and 1 to the count. */
  lemma {:induction false} LedgerAppend(a: seq<Transaction>, b: seq<Transaction>, kind: string)
    ensures Total(a + b, kind) == Total(a, kind) + Total(b, kind)
    ensures GstTotal(a + b, kind) == GstTotal(a, kind) + GstTotal(b, kind)
    ensures CountOf(a + b, kind) == CountOf(a, kind) + CountOf(b, kind)
    ensures |a| == 1 ==> Total(a, kind) == (if a[0].kind == kind then a[0].amount else 0.0)
    ensures |a| == 1 ==> GstTotal(a, kind) == (if a[0].kind == kind && a[0].gstApplicable then a[0].gstAmount else 0.0)
    ensures |a| == 1 ==> CountOf(a, kind) == (if a[0].kind == kind then 1 else 0)
    decreases |a|
  {
    if |a| > 0 {
      assert (a + b)[1..] == a[1..] + b;
      LedgerAppend(a[1..], b, kind);
      if |a| == 1 {
        assert a[1..] == [];
      }
    } else {
      assert a + b == b;
    }
  }

  /** A record of one kind is never counted as the other kind, so the two
      counts together never exceed the number of records. */
  lemma {:induction false} KindCountsBounded(ts: seq<Transaction>, k1: string, k2: string)
    requires k1 != k2
    ensures CountOf(ts, k1) + CountOf(ts, k2) <= |ts|
    decreases |ts|
  {
    if |ts| > 0 {
      KindCountsBounded(ts[1..], k1, k2);
    }
  }

  /** Only records of `kind` feed its totals. */
  lemma {:induction false} LedgerIgnoresOtherKinds(ts: seq<Transaction>, t: Transaction, kind: string)
    requires t.kind != kind
    ensures Total(ts + [t], kind) == Total(ts, kind)
    ensures GstTotal(ts + [t], kind) == GstTotal(ts, kind)
    ensures CountOf(ts + [t], kind) == CountOf(ts, kind)
  {
    LedgerAppend(ts, [t], kind);
    assert [t][1..] == [];
  }

  /** Amounts validated at ingestion are non-negative; the sums keep that. */
  predicate NonNegativeAmounts(ts: seq<Transaction>) {
    forall k :: 0 <= k < |ts| ==> ts[k].amount >= 0.0
  }

  lemma {:induction false} TotalNonNegative(ts: seq<Transaction>, kind: string)
    requires NonNegativeAmounts(ts)
    ensures Total(ts, kind) >= 0.0
    decreases |ts|
  {
    if |ts| > 0 {
      TotalNonNegative(ts[1..], kind);
    }
  }

  /** `strptime(date, '%Y-%m-%d')` succeeded and fell in the given month. */
  predicate InMonth(date: string, year: int, month: int, parseDate: string -> Option<Date>) {
    match parseDate(date)
    case Some(d) => d.year == year && d.month == month
    case None => false
  }

  /** The records of a month, in store order. */
  function MonthRecords(ts: seq<Transaction>, year: int, month: int, parseDate: string -> Option<Date>): (r: seq<Transaction>)
    ensures |r| <= |ts|
    ensures forall t :: t in r <==> t in ts && InMonth(t.date, year, month, parseDate)
  {
    if |ts| == 0 then []
    else
      var rest := MonthRecords(ts[1..], year, month, parseDate);
      assert forall t :: t in ts <==> t == ts[0] || t in ts[1..];
      if InMonth(ts[0].date, year, month, parseDate) then [ts[0]] + rest else rest
  }

  /** The filter works record by record: a single record is kept exactly
      when it falls in the month, and a concatenation is filtered part by
      part, so the month's records keep their store order. */
  lemma {:induction false} MonthRecordsAppend(a: seq<Transaction>, b: seq<Transaction>, year: int, month: int,
                                              parseDate: string -> Option<Date>)
    ensures MonthRecords(a + b, year, month, parseDate)
      == MonthRecords(a, year, month, parseDate) + MonthRecords(b, year, month, parseDate)
    ensures |a| == 1 ==> MonthRecords(a, year, month, parseDate) == (if InMonth(a[0].date, year, month, parseDate) then a else [])
    decreases |a|
  {
    if |a| == 0 {
      assert a + b == b;
    } else {
      assert (a + b)[0] == a[0] && (a + b)[1..] == a[1..] + b;
      MonthRecordsAppend(a[1..], b, year, month, parseDate);
      if |a| == 1 {
        assert a[1..] == [] && [a[0]] == a;
      }
    }
  }
}

=== FILE: routes.dfy ===
/** The pure parts of the web routes: the upload filter, the date-ordered
    transaction lists, and the path an upload takes from the parsed reply
    into the store. */
module Routes {
  import opened Wrappers
  import opened Text
  import opened Records
  import AiService
  import StorageService

  // ---------------------------------------------------------------------
  // Upload filter
  // ---------------------------------------------------------------------

  const AllowedExtensions: set<string> := {"pdf", "png", "jpg", "jpeg", "tiff", "bmp"}

  predicate AllowedExtension(ext: string) {
    ext in AllowedExtensions
  }

  /** Position `i` holds the last dot of `filename`. */
  predicate LastDotAt(filename: string, i: int) {
    && 0 <= i < |filename|
    && filename[i] == '.'
    && forall k :: i < k < |filename| ==> filename[k] != '.'
  }

  lemma LastDotUnique(filename: string, i: int, j: int)
    requires LastDotAt(filename, i) && LastDotAt(filename, j)
    ensures i == j
  {
  }

  /** The text after the last dot starts right after a last dot. */
  lemma AfterLastDot(filename: string)
    requires '.' in filename
    ensures var i := |filename| - |AfterLast(filename, '.')| - 1;
      LastDotAt(filename, i) && filename[i + 1..] == AfterLast(filename, '.')
  {
    var ext := AfterLast(filename, '.');
    var i := |filename| - |ext| - 1;
    assert 0 <= i < |filename| && filename[i] == '.';
    assert forall k :: i < k < |filename| ==> filename[k] != '.';
    assert LastDotAt(filename, i);
  }

  /** `allowed_file`: the name has a dot, and the text after its last dot,
      lower-cased, is one of the allowed extensions. */
  function AllowedFile(filename: string): (r: bool)
    ensures r <==> exists i :: LastDotAt(filename, i) && AllowedExtension(Lower(filename[i + 1..]))
  {
    if '.' in filename then
      var ext := AfterLast(filename, '.');
      var i := |filename| - |ext| - 1;
      AfterLastDot(filename);
      assert forall d :: LastDotAt(filename, d) ==> d == i by {
        forall d | LastDotAt(filename, d) ensures d == i {
          LastDotUnique(filename, d, i);
        }
      }
      AllowedExtension(Lower(ext))
    else
      assert forall d :: !LastDotAt(filename, d) by {
        forall d | 0 <= d < |filename| ensures !LastDotAt(filename, d) {
          assert filename[d] in filename;
        }
      }
      false
  }

  /** Only the last extension counts. */
  lemma LastExtensionDecides()
    ensures AllowedFile("invoice.tar.pdf")
  {
    var a := "invoice.tar.pdf";
    assert a[12..] == "pdf" && Lower("pdf") == "pdf";
    assert LastDotAt(a, 11) && AllowedExtension(Lower(a[12..]));
  }

  /** The extension's case does not matter. */
  lemma ExtensionCaseIgnored()
    ensures AllowedFile("SCAN.PNG")
  {
    var b := "SCAN.PNG";
    assert b[5..] == "PNG" && Lower("PNG") == "png";
    assert LastDotAt(b, 4) && AllowedExtension(Lower(b[5..]));
  }

  /** A name whose last part is not an allowed extension is refused. */
  lemma OtherExtensionRefused()
    ensures !AllowedFile("pdf.exe")
  {
    var a := "pdf.exe";
    assert a[3] == '.';
    forall d | LastDotAt(a, d) ensures d == 3 {
    }
    assert a[4..] == "exe" && Lower("exe") == "exe";
    assert !AllowedExtension(Lower(a[4..]));
  }

  /** A trailing dot leaves an empty extension, which is refused. */
  lemma TrailingDotRefused()
    ensures !AllowedFile("receipt.")
  {
    assert Lower("") == "";
  }

  /** A name without a dot is refused whatever it spells. */
  lemma NoDotRefused()
    ensures !AllowedFile("pdf")
  {
  }

  // ---------------------------------------------------------------------
  // Date-ordered lists
  // ---------------------------------------------------------------------

  /** Newest first under `key`. */
  predicate NewestFirst(s: seq<Transaction>, key: Transaction -> int) {
    forall i, j :: 0 <= i < j < |s| ==> key(s[i]) >= key(s[j])
  }

  /** Inserts `x` after every record at least as new, so records with equal
      keys keep their order of arrival. */
  function Insert(x: Transaction, s: seq<Transaction>, key: Transaction -> int): (r: seq<Transaction>)
    requires NewestFirst(s, key)
    ensures NewestFirst(r, key)
    ensures multiset(r) == multiset(s) + multiset{x}
    ensures |r| == |s| + 1
  {
    if |s| == 0 then [x]
    else if key(s[0]) >= key(x) then
      NewestFirstTail(s, key);
      var rest := Insert(x, s[1..], key);
      assert s == [s[0]] + s[1..];
      assert multiset(s) == multiset{s[0]} + multiset(s[1..]);
      HeadDominates(s[0], x, s[1..], rest, key);
      [s[0]] + rest
    else
      PrependNewest(x, s, key);
      [x] + s
  }

  /** A record at least as new as the head of a sorted list can go first. */
  lemma PrependNewest(x: Transaction, s: seq<Transaction>, key: Transaction -> int)
    requires NewestFirst(s, key) && |s| > 0 && key(x) >= key(s[0])
    ensures NewestFirst([x] + s, key)
  {
    forall i, j | 0 <= i < j < |s| + 1 ensures key(([x] + s)[i]) >= key(([x] + s)[j]) {
      assert ([x] + s)[j] == s[j - 1];
      if i == 0 {
        assert key(s[0]) >= key(s[j - 1]) || j == 1;
      } else {
        assert ([x] + s)[i] == s[i - 1];
      }
    }
  }

  /** A record at least as new as `x` and as every record of `s` heads any
      sequence made of `x` and records of `s`. */
  lemma HeadDominates(h: Transaction, x: Transaction, s: seq<Transaction>, rest: seq<Transaction>, key: Transaction -> int)
    requires NewestFirst([h] + s, key) && NewestFirst(rest, key)
    requires key(h) >= key(x)
    requires multiset(rest) == multiset(s) + multiset{x}
    ensures NewestFirst([h] + rest, key)
  {
    forall k | 0 <= k < |rest| ensures key(h) >= key(rest[k]) {
      assert rest[k] in multiset(rest);
      if rest[k] != x {
        var m :| 0 <= m < |s| && s[m] == rest[k];
        assert ([h] + s)[0] == h && ([h] + s)[m + 1] == rest[k];
        assert key(([h] + s)[0]) >= key(([h] + s)[m + 1]);
      }
    }
    forall i, j | 0 <= i < j < |[h] + rest| ensures key(([h] + rest)[i]) >= key(([h] + rest)[j]) {
      assert ([h] + rest)[j] == rest[j - 1];
      if i > 0 {
        assert ([h] + rest)[i] == rest[i - 1];
      } else {
        assert ([h] + rest)[i] == h;
      }
    }
  }

  /** `sorted(..., key=..., reverse=True)`: a stable sort, newest first. */
  function SortNewestFirst(s: seq<Transaction>, key: Transaction -> int): (r: seq<Transaction>)
    ensures NewestFirst(r, key)
    ensures multiset(r) == multiset(s)
    ensures |r| == |s|
  {
    if |s| == 0 then []
    else
      assert s == s[..|s| - 1] + [s[|s| - 1]];
      Insert(s[|s| - 1], SortNewestFirst(s[..|s| - 1], key), key)
  }

  lemma NewestFirstPrefix(s: seq<Transaction>, n: nat, key: Transaction -> int)
    requires NewestFirst(s, key) && n <= |s|
    ensures NewestFirst(s[..n], key)
  {
    forall i, j | 0 <= i < j < n ensures key(s[..n][i]) >= key(s[..n][j]) {
      assert s[..n][i] == s[i] && s[..n][j] == s[j];
    }
  }

  lemma NewestFirstTail(s: seq<Transaction>, key: Transaction -> int)
    requires NewestFirst(s, key) && |s| > 0
    ensures NewestFirst(s[1..], key)
  {
    forall i, j | 0 <= i < j < |s| - 1 ensures key(s[1..][i]) >= key(s[1..][j]) {
      assert s[1..][i] == s[i + 1] && s[1..][j] == s[j + 1];
    }
  }

  /** Behind a record at least as new, `x` is inserted into the rest. */
  lemma InsertBehind(x: Transaction, s: seq<Transaction>, key: Transaction -> int)
    requires NewestFirst(s, key) && |s| > 0 && key(s[0]) >= key(x)
    ensures NewestFirst(s[1..], key)
    ensures Insert(x, s, key) == [s[0]] + Insert(x, s[1..], key)
  {
    NewestFirstTail(s, key);
  }

  /** A record no newer than the last of a sorted list goes at its end. */
  lemma {:induction false} InsertOldest(x: Transaction, s: seq<Transaction>, key: Transaction -> int)
    requires NewestFirst(s, key) && NewestFirst(s + [x], key)
    ensures Insert(x, s, key) == s + [x]
    decreases |s|
  {
    if |s| > 0 {
      var sx := s + [x];
      assert sx[0] == s[0] && sx[|s|] == x;
      InsertBehind(x, s, key);
      NewestFirstTail(sx, key);
      assert sx[1..] == s[1..] + [x];
      InsertOldest(x, s[1..], key);
      ConcatAssociative([s[0]], s[1..], [x]);
      assert [s[0]] + s[1..] == s;
    }
  }

  /** Sorting a list that is already newest first leaves it as it is. */
  lemma {:induction false} SortKeepsSorted(s: seq<Transaction>, key: Transaction -> int)
    requires NewestFirst(s, key)
    ensures SortNewestFirst(s, key) == s
    decreases |s|
  {
    if |s| > 0 {
      var init := s[..|s| - 1];
      assert s == init + [s[|s| - 1]];
      NewestFirstPrefix(s, |s| - 1, key);
      InsertOldest(s[|s| - 1], init, key);
      SortKeepsSorted(init, key);
    }
  }

  /** Sorting twice is sorting once. */
  lemma SortIdempotent(s: seq<Transaction>, key: Transaction -> int)
    ensures SortNewestFirst(SortNewestFirst(s, key), key) == SortNewestFirst(s, key)
  {
    SortKeepsSorted(SortNewestFirst(s, key), key);
  }

  /** `datetime.fromisoformat` stands in as `dateKey`; its result is
      reduced to a number that orders dates as the datetimes do. */
  predicate AllDatesParse(ts: seq<Transaction>, dateKey: string -> Option<int>) {
    forall k :: 0 <= k < |ts| ==> dateKey(ts[k].date).Some?
  }

  function DateKeyOf(dateKey: string -> Option<int>): Transaction -> int {
    (t: Transaction) => dateKey(t.date).GetOr(0)
  }

  /** The `transactions` view: all records newest first, or none when a
      date does not parse (the handler's `except` branch). */
  function TransactionsView(ts: seq<Transaction>, dateKey: string -> Option<int>): (r: seq<Transaction>)
    ensures !AllDatesParse(ts, dateKey) ==> r == []
    ensures AllDatesParse(ts, dateKey) ==>
      multiset(r) == multiset(ts) && NewestFirst(r, DateKeyOf(dateKey))
    ensures AllDatesParse(ts, dateKey) ==> r == SortNewestFirst(ts, DateKeyOf(dateKey))
  {
    if AllDatesParse(ts, dateKey) then SortNewestFirst(ts, DateKeyOf(dateKey)) else []
  }

  /** How many records the dashboard lists. */
  const RecentCount: nat := 10

  /** The dashboard's recent list: the first ten of the newest-first order.
      Every record left out is no newer than every record shown. */
  function RecentTransactions(ts: seq<Transaction>, dateKey: string -> Option<int>): (r: seq<Transaction>)
    ensures !AllDatesParse(ts, dateKey) ==> r == []
    ensures AllDatesParse(ts, dateKey) ==>
      var key := DateKeyOf(dateKey);
      var all := SortNewestFirst(ts, key);
      && |r| == (if |ts| < RecentCount then |ts| else RecentCount)
      && r == all[..|r|]
      && NewestFirst(r, key)
      && multiset(r) + multiset(all[|r|..]) == multiset(ts)
      && forall i, j :: 0 <= i < |r| <= j < |all| ==> key(all[j]) <= key(r[i])
  {
    if AllDatesParse(ts, dateKey) then
      var all := SortNewestFirst(ts, DateKeyOf(dateKey));
      var n := if |ts| < RecentCount then |ts| else RecentCount;
      SortedSplit(all, n, DateKeyOf(dateKey));
      all[..n]
    else []
  }

  /** Cutting a newest-first list leaves a newest-first head, loses no
      record, and puts nothing newer behind the cut. */
  lemma SortedSplit(all: seq<Transaction>, n: nat, key: Transaction -> int)
    requires NewestFirst(all, key) && n <= |all|
    ensures NewestFirst(all[..n], key)
    ensures multiset(all[..n]) + multiset(all[n..]) == multiset(all)
    ensures forall i, j :: 0 <= i < n <= j < |all| ==> key(all[j]) <= key(all[..n][i])
  {
    NewestFirstPrefix(all, n, key);
    assert all == all[..n] + all[n..];
    forall i, j | 0 <= i < n <= j < |all| ensures key(all[j]) <= key(all[..n][i]) {
      assert all[..n][i] == all[i];
    }
  }

  /** An upload that reaches the store: the validated reply, saved as a new
      record, keeps every bound the validator established. */
  lemma UploadedRecordWellFormed(store: seq<Transaction>, data: AiService.Data, today: string,
                                 parseFloat: string -> Option<real>, parseDate: string -> Option<Date>,
                                 id: string, stamp: string, filepath: string, extractedText: string)
    ensures var v := AiService.ValidateParsedData(data, today, parseFloat, parseDate);
      var saved := StorageService.SaveTransaction(store, AiService.AsFields(v), id, stamp, today, filepath, extractedText);
      var t := saved[|store|];
      && saved[..|store|] == store
      && (t.kind == "income" || t.kind == "expense")
      && t.amount >= 0.0
      && t.gstAmount <= t.amount
      && 0.0 <= t.confidence <= 1.0
      && (t.date == today || parseDate(t.date).Some?)
      && (StorageService.NoAmountNote in t.processingNotes <==> t.amount == 0.0)
  {
  }
}

=== FILE: storage_service.dfy ===
/** The transaction store's operations, with the JSON file replaced by the
    list of records it holds: each operation takes the list and returns the
    list it would write back. */
module StorageService {
  import opened Wrappers
  import opened Text
  import opened Records
  import TaxCalculator

  // ---------------------------------------------------------------------
  // New records
  // ---------------------------------------------------------------------

  const LowConfidenceNote: string := "Low confidence parsing - please verify"
  const NoAmountNote: string := "No amount detected - please verify"
  const UnknownVendorNote: string := "Client/vendor not identified"

  /** The position of each note in the order the source appends them. */
  function NoteRank(note: string): nat {
    if note == LowConfidenceNote then 0 else if note == NoAmountNote then 1 else 2
  }

  /** The processing notes of a new record: each note present exactly when
      its condition holds, none twice, in the source's order. */
  function ProcessingNotes(confidence: real, amount: real, vendor: string): (notes: seq<string>)
    ensures LowConfidenceNote in notes <==> confidence < 0.5
    ensures NoAmountNote in notes <==> amount == 0.0
    ensures UnknownVendorNote in notes <==> vendor == "Unknown"
    ensures forall k :: 0 <= k < |notes| ==> notes[k] in {LowConfidenceNote, NoAmountNote, UnknownVendorNote}
    ensures forall i, j :: 0 <= i < j < |notes| ==> NoteRank(notes[i]) < NoteRank(notes[j])
  {
    (if confidence < 0.5 then [LowConfidenceNote] else [])
    + (if amount == 0.0 then [NoAmountNote] else [])
    + (if vendor == "Unknown" then [UnknownVendorNote] else [])
  }

  /** `os.path.basename(path) if path else None`: the path's last
      component, absent for an empty path. */
  function Basename(path: string): (r: Option<string>)
    ensures r.None? <==> path == []
    ensures r.Some? ==>
      var name := r.value;
      && '/' !in name
      && |name| <= |path|
      && name == path[|path| - |name|..]
      && ('/' in path ==> |name| < |path| && path[|path| - |name| - 1] == '/')
      && ('/' !in path ==> name == path)
  {
    if path == [] then None else Some(AfterLast(path, '/'))
  }

  const ExcerptLength: nat := 1000

  /** `text[:1000] if text else None`: exactly the first 1000 characters,
      the whole text when shorter, absent when empty. */
  function Excerpt(text: string): (r: Option<string>)
    ensures r.None? <==> text == []
    ensures r.Some? ==>
      var kept := r.value;
      && |kept| == (if |text| < ExcerptLength then |text| else ExcerptLength)
      && kept == text[..|kept|]
  {
    if text == [] then None else Some(Take(text, ExcerptLength))
  }

  /** The record `save_transaction` builds. `id` stands for `uuid4()`,
      `stamp` for `datetime.now().isoformat()` and `today` for today's
      date as YYYY-MM-DD. Missing keys take their defaults. */
  function NewTransaction(f: Fields, id: string, stamp: string, today: string,
                          filepath: string, extractedText: string): (r: Transaction)
    ensures r.id == id && r.timestamp == stamp && r.lastUpdated == None
    ensures r.kind == f.kind.GetOr("expense") && r.amount == f.amount.GetOr(0.0)
    ensures r.date == f.date.GetOr(today) && r.clientVendor == f.clientVendor.GetOr("Unknown")
    ensures r.description == f.description.GetOr("Transaction") && r.category == f.category.GetOr("other_business")
    ensures r.gstApplicable == f.gstApplicable.GetOr(false) && r.gstAmount == f.gstAmount.GetOr(0.0)
    ensures r.currency == f.currency.GetOr("INR") && r.confidence == f.confidence.GetOr(0.7)
    ensures r.originalFilename == Basename(filepath)
    ensures r.extractedText == Excerpt(extractedText)
    ensures r.processingNotes == ProcessingNotes(r.confidence, r.amount, r.clientVendor)
  {
    var confidence := f.confidence.GetOr(0.7);
    var amount := f.amount.GetOr(0.0);
    var vendor := f.clientVendor.GetOr("Unknown");
    Transaction(
      id, stamp,
      f.kind.GetOr("expense"),
      amount,
      f.date.GetOr(today),
      vendor,
      f.description.GetOr("Transaction"),
      f.category.GetOr("other_business"),
      f.gstApplicable.GetOr(false),
      f.gstAmount.GetOr(0.0),
      f.currency.GetOr("INR"),
      confidence,
      Basename(filepath),
      Excerpt(extractedText),
      ProcessingNotes(confidence, amount, vendor),
      None)
  }

  /** `save_transaction`: the new record goes at the end; the earlier
      records are written back unchanged. */
  function SaveTransaction(store: seq<Transaction>, f: Fields, id: string, stamp: string, today: string,
                           filepath: string, extractedText: string): (r: seq<Transaction>)
    ensures |r| == |store| + 1
    ensures r[..|store|] == store
    ensures r[|store|] == NewTransaction(f, id, stamp, today, filepath, extractedText)
  {
    store + [NewTransaction(f, id, stamp, today, filepath, extractedText)]
  }

  // ---------------------------------------------------------------------
  // Lookup, delete, update
  // ---------------------------------------------------------------------

  /** Record `i` is the first that carries `id`. */
  predicate FirstWithId(store: seq<Transaction>, id: string, i: int) {
    && 0 <= i < |store|
    && store[i].id == id
    && forall j :: 0 <= j < i ==> store[j].id != id
  }

  predicate HasId(store: seq<Transaction>, id: string) {
    exists k :: 0 <= k < |store| && store[k].id == id
  }

  function FindIndex(store: seq<Transaction>, id: string): (r: Option<nat>)
    ensures r.None? <==> !HasId(store, id)
    ensures r.Some? ==> FirstWithId(store, id, r.value)
    decreases |store|
  {
    if |store| == 0 then None
    else if store[0].id == id then Some(0)
    else
      match FindIndex(store[1..], id)
      case None =>
        assert !HasId(store, id) by {
          forall k | 0 < k < |store| ensures store[k].id != id {
            assert store[1..][k - 1] == store[k];
          }
        }
        None
      case Some(i) =>
        assert FirstWithId(store, id, i + 1) by {
          forall j | 0 < j < i + 1 ensures store[j].id != id {
            assert store[1..][j - 1] == store[j];
          }
        }
        Some(i + 1)
  }

  /** `get_transaction_by_id`: the first record with the id, or none. */
  function GetTransactionById(store: seq<Transaction>, id: string): (r: Option<Transaction>)
    ensures r.None? <==> !HasId(store, id)
    ensures r.Some? ==> exists i :: FirstWithId(store, id, i) && r.value == store[i]
  {
    match FindIndex(store, id)
    case Some(i) => Some(store[i])
    case None => None
  }

  lemma HasIdCons(store: seq<Transaction>, id: string)
    requires |store| > 0
    ensures HasId(store, id) <==> store[0].id == id || HasId(store[1..], id)
  {
    if HasId(store[1..], id) {
      var k :| 0 <= k < |store[1..]| && store[1..][k].id == id;
      assert store[k + 1].id == id;
    }
    if HasId(store, id) && store[0].id != id {
      var k :| 0 <= k < |store| && store[k].id == id;
      assert store[1..][k - 1].id == id;
    }
  }

  /** The records whose id differs from `id`, in store order. */
  function WithoutId(store: seq<Transaction>, id: string): (r: seq<Transaction>)
    ensures forall t :: t in r <==> t in store && t.id != id
    ensures |r| <= |store|
    ensures |r| == |store| <==> !HasId(store, id)
    ensures !HasId(store, id) ==> r == store
    decreases |store|
  {
    if |store| == 0 then []
    else
      var rest := WithoutId(store[1..], id);
      HasIdCons(store, id);
      assert store == [store[0]] + store[1..];
      if store[0].id == id then rest else [store[0]] + rest
  }

  lemma WithoutIdCons(store: seq<Transaction>, id: string)
    requires |store| > 0
    ensures WithoutId(store, id) == (if store[0].id == id then [] else [store[0]]) + WithoutId(store[1..], id)
  {
  }

  /** The filter works record by record: a single record is dropped exactly
      when it carries the id, and a concatenation is filtered part by part,
      so the kept records stay in store order. */
  lemma {:induction false} WithoutIdAppend(a: seq<Transaction>, b: seq<Transaction>, id: string)
    ensures WithoutId(a + b, id) == WithoutId(a, id) + WithoutId(b, id)
    ensures |a| == 1 ==> WithoutId(a, id) == (if a[0].id == id then [] else a)
    decreases |a|
  {
    if |a| == 0 {
      assert a + b == b;
    } else {
      var ab := a + b;
      assert ab[0] == a[0] && ab[1..] == a[1..] + b;
      WithoutIdAppend(a[1..], b, id);
      var headKept: seq<Transaction> := if a[0].id == id then [] else [a[0]];
      WithoutIdCons(ab, id);
      WithoutIdCons(a, id);
      ConcatAssociative(headKept, WithoutId(a[1..], id), WithoutId(b, id));
      if |a| == 1 {
        assert a[1..] == [] && [a[0]] == a;
      }
    }
  }

  /** `delete_transaction`: every record with the id is removed and the
      others kept in order; the result is true exactly when one was
      removed, and otherwise the store is untouched. */
  function DeleteTransaction(store: seq<Transaction>, id: string): (r: (bool, seq<Transaction>))
    ensures forall t :: t in r.1 <==> t in store && t.id != id
    ensures r.1 == WithoutId(store, id)
    ensures r.0 <==> HasId(store, id)
    ensures r.0 ==> |r.1| < |store|
    ensures !r.0 ==> r.1 == store
  {
    var kept := WithoutId(store, id);
    if |kept| < |store| then (true, kept) else (false, store)
  }

  /** The patch applied with `dict.update`, plus the `last_updated` stamp. */
  function Merge(t: Transaction, p: Fields, stamp: string): (r: Transaction)
    ensures r.id == t.id && r.timestamp == t.timestamp && r.lastUpdated == Some(stamp)
    ensures r.originalFilename == t.originalFilename && r.extractedText == t.extractedText
    ensures r.processingNotes == t.processingNotes
    ensures r.kind == p.kind.GetOr(t.kind) && r.amount == p.amount.GetOr(t.amount)
    ensures r.date == p.date.GetOr(t.date) && r.category == p.category.GetOr(t.category)
    ensures r.clientVendor == p.clientVendor.GetOr(t.clientVendor)
    ensures r.description == p.description.GetOr(t.description)
    ensures r.gstApplicable == p.gstApplicable.GetOr(t.gstApplicable)
    ensures r.gstAmount == p.gstAmount.GetOr(t.gstAmount)
    ensures r.currency == p.currency.GetOr(t.currency)
    ensures r.confidence == p.confidence.GetOr(t.confidence)
  {
    t.(kind := p.kind.GetOr(t.kind),
       amount := p.amount.GetOr(t.amount),
       date := p.date.GetOr(t.date),
       clientVendor := p.clientVendor.GetOr(t.clientVendor),
       description := p.description.GetOr(t.description),
       category := p.category.GetOr(t.category),
       gstApplicable := p.gstApplicable.GetOr(t.gstApplicable),
       gstAmount := p.gstAmount.GetOr(t.gstAmount),
       currency := p.currency.GetOr(t.currency),
       confidence := p.confidence.GetOr(t.confidence),
       lastUpdated := Some(stamp))
  }

  /** An empty patch only stamps the record, and applying the same patch
      twice is applying it once (up to the stamp). */
  lemma MergeEmptyPatchAndRepeat(t: Transaction, p: Fields, stamp: string, later: string)
    ensures Merge(t, Fields(None, None, None, None, None, None, None, None, None, None), stamp)
      == t.(lastUpdated := Some(stamp))
    ensures Merge(Merge(t, p, stamp), p, later) == Merge(t, p, later)
  {
  }

  /** `update_transaction`: only the first record with the id is merged
      with the patch; nothing else changes, and with no such record the
      result is false and the store untouched. */
  function UpdateTransaction(store: seq<Transaction>, id: string, patch: Fields, stamp: string): (r: (bool, seq<Transaction>))
    ensures r.0 <==> HasId(store, id)
    ensures |r.1| == |store|
    ensures !r.0 ==> r.1 == store
    ensures r.0 ==> exists i :: (
      && FirstWithId(store, id, i)
      && r.1[i] == Merge(store[i], patch, stamp)
      && forall j :: 0 <= j < |store| && j != i ==> r.1[j] == store[j])
  {
    match FindIndex(store, id)
    case Some(i) => (true, store[i := Merge(store[i], patch, stamp)])
    case None => (false, store)
  }

  /** After an update, lookup finds the merged record. */
  lemma LookupAfterUpdate(store: seq<Transaction>, id: string, patch: Fields, stamp: string)
    requires HasId(store, id)
    ensures GetTransactionById(UpdateTransaction(store, id, patch, stamp).1, id)
      == Some(Merge(GetTransactionById(store, id).value, patch, stamp))
  {
    var i := FindIndex(store, id).value;
    var updated := UpdateTransaction(store, id, patch, stamp).1;
    assert forall j :: 0 <= j < i ==> updated[j] == store[j];
    assert FirstWithId(updated, id, i);
  }

  /** After a delete, lookup finds nothing. */
  lemma LookupAfterDelete(store: seq<Transaction>, id: string)
    ensures GetTransactionById(DeleteTransaction(store, id).1, id) == None
  {
    var r := DeleteTransaction(store, id).1;
    assert !HasId(r, id) by {
      forall k | 0 <= k < |r| ensures r[k].id != id {
        assert r[k] in r;
      }
    }
  }

  /** A freshly saved record is found by its new id. */
  lemma LookupAfterSave(store: seq<Transaction>, f: Fields, id: string, stamp: string, today: string,
                        filepath: string, extractedText: string)
    requires !HasId(store, id)
    ensures GetTransactionById(SaveTransaction(store, f, id, stamp, today, filepath, extractedText), id)
      == Some(NewTransaction(f, id, stamp, today, filepath, extractedText))
  {
    var r := SaveTransaction(store, f, id, stamp, today, filepath, extractedText);
    assert FirstWithId(r, id, |store|) by {
      forall j | 0 <= j < |store| ensures r[j].id != id {
        assert r[j] == store[j];
      }
    }
  }

  // ---------------------------------------------------------------------
  // Date range and monthly summary
  // ---------------------------------------------------------------------

  /** The non-empty dates of the store, in store order. */
  function Dates(store: seq<Transaction>): (r: seq<string>)
    ensures forall d :: d in r ==> d != [] && exists k :: 0 <= k < |store| && store[k].date == d
    ensures forall k :: 0 <= k < |store| && store[k].date != [] ==> store[k].date in r
    decreases |store|
  {
    if |store| == 0 then []
    else
      var rest := Dates(store[1..]);
      assert forall d :: d in rest ==> exists k :: 0 <= k < |store| && store[k].date == d by {
        forall d | d in rest ensures exists k :: 0 <= k < |store| && store[k].date == d {
          var k :| 0 <= k < |store[1..]| && store[1..][k].date == d;
          assert store[k + 1].date == d;
        }
      }
      assert forall k :: 1 <= k < |store| ==> store[k] == store[1..][k - 1];
      if store[0].date != [] then [store[0].date] + rest else rest
  }

  /** Python's `min` over strings. */
  function MinDate(ds: seq<string>): (r: string)
    requires |ds| > 0
    ensures r in ds
    ensures forall d :: d in ds ==> LexLe(r, d)
  {
    LexLeTotal(ds[0], ds[0]);
    if |ds| == 1 then ds[0]
    else
      var m := MinDate(ds[1..]);
      LexLeTotal(ds[0], m);
      assert forall d :: d in ds ==> d == ds[0] || d in ds[1..];
      if LexLe(ds[0], m) then
        assert forall d :: d in ds[1..] ==> LexLe(ds[0], d) by {
          forall d | d in ds[1..] ensures LexLe(ds[0], d) { LexLeTransitive(ds[0], m, d); }
        }
        ds[0]
      else m
  }

  /** Python's `max` over strings. */
  function MaxDate(ds: seq<string>): (r: string)
    requires |ds| > 0
    ensures r in ds
    ensures forall d :: d in ds ==> LexLe(d, r)
  {
    LexLeTotal(ds[0], ds[0]);
    if |ds| == 1 then ds[0]
    else
      var m := MaxDate(ds[1..]);
      LexLeTotal(ds[0], m);
      assert forall d :: d in ds ==> d == ds[0] || d in ds[1..];
      if LexLe(m, ds[0]) then
        assert forall d :: d in ds[1..] ==> LexLe(d, ds[0]) by {
          forall d | d in ds[1..] ensures LexLe(d, ds[0]) { LexLeTransitive(d, m, ds[0]); }
        }
        ds[0]
      else m
  }

  datatype DateRange = DateRange(start: Option<string>, end: Option<string>)

  /** `get_date_range`: no bounds when no record has a date; otherwise the
      earliest and latest date as strings, so start <= end. */
  function GetDateRange(store: seq<Transaction>): (r: DateRange)
    ensures r.start.None? <==> forall k :: 0 <= k < |store| ==> store[k].date == []
    ensures r.start.None? <==> r.end.None?
    ensures r.start.Some? ==>
      && LexLe(r.start.value, r.end.value)
      && (exists k :: 0 <= k < |store| && store[k].date == r.start.value && r.start.value != [])
      && (exists k :: 0 <= k < |store| && store[k].date == r.end.value && r.end.value != [])
      && forall k :: 0 <= k < |store| && store[k].date != [] ==>
           LexLe(r.start.value, store[k].date) && LexLe(store[k].date, r.end.value)
  {
    var ds := Dates(store);
    if |ds| == 0 then
      DateRange(None, None)
    else
      var lo, hi := MinDate(ds), MaxDate(ds);
      assert ds[0] in ds;
      LexLeTransitive(lo, ds[0], hi);
      DateRange(Some(lo), Some(hi))
  }

  datatype MonthlySummary = MonthlySummary(
    year: int,
    month: int,
    totalIncome: real,
    totalExpenses: real,
    netProfit: real,
    transactionCount: nat,
    transactions: seq<Transaction>)

  /** `get_monthly_summary` over the given year and month (the source's
      defaults, the current ones, are the caller's to pass): exactly the
      records whose date parses into that month, their income and expense
      totals, and net = income - expenses. */
  function GetMonthlySummary(store: seq<Transaction>, year: int, month: int,
                             parseDate: string -> Option<Date>): (r: MonthlySummary)
    ensures forall t :: t in r.transactions <==> t in store && InMonth(t.date, year, month, parseDate)
    ensures r.transactions == MonthRecords(store, year, month, parseDate)
    ensures r.transactionCount == |r.transactions|
    ensures r.totalIncome == Total(r.transactions, "income")
    ensures r.totalExpenses == Total(r.transactions, "expense")
    ensures r.netProfit == r.totalIncome - r.totalExpenses
    ensures r.transactions == [] ==> r.totalIncome == 0.0 && r.totalExpenses == 0.0 && r.netProfit == 0.0
  {
    var monthly := MonthRecords(store, year, month, parseDate);
    if |monthly| == 0 then MonthlySummary(year, month, 0.0, 0.0, 0.0, 0, [])
    else
      var income := Total(monthly, "income");
      var expenses := Total(monthly, "expense");
      MonthlySummary(year, month, income, expenses, income - expenses, |monthly|, monthly)
  }

  /** The dashboard's current-month figures agree with the monthly summary
      of the current month. */
  lemma CurrentMonthMatchesMonthlySummary(store: seq<Transaction>, now: Date, parseDate: string -> Option<Date>)
    ensures var s := TaxCalculator.GetTaxSummary(store, now, parseDate);
      var m := GetMonthlySummary(store, now.year, now.month, parseDate);
      s.currentMonthIncome == m.totalIncome && s.currentMonthExpenses == m.totalExpenses
  {
  }

  // ---------------------------------------------------------------------
  // Recommendations
  // ---------------------------------------------------------------------

  /** The items of `generate_recommendations`. */
  datatype Recommendation =
    | Incorporate
    | ClaimMoreExpenses
    | DocumentExpenses
    | RegisterForGst
    | TaxSavingInvestments

  /** The position of each recommendation in the order the source appends them. */
  function RecommendationRank(x: Recommendation): int {
    match x
    case Incorporate => 0
    case ClaimMoreExpenses => 1
    case DocumentExpenses => 2
    case RegisterForGst => 3
    case TaxSavingInvestments => 4
  }

  /** Every item ranks below every later one: the items are in the order
      the source appends them, and none appears twice. */
  predicate RecommendationsInOrder(r: seq<Recommendation>) {
    forall i, j :: 0 <= i < j < |r| ==> RecommendationRank(r[i]) < RecommendationRank(r[j])
  }

  /** Appending an item that ranks above every item present keeps the order. */
  lemma RecommendationSnoc(a: seq<Recommendation>, x: Recommendation)
    requires RecommendationsInOrder(a)
    requires forall k :: 0 <= k < |a| ==> RecommendationRank(a[k]) < RecommendationRank(x)
    ensures RecommendationsInOrder(a + [x])
    ensures forall k :: 0 <= k < |a + [x]| ==> RecommendationRank((a + [x])[k]) <= RecommendationRank(x)
  {
    assert forall k :: 0 <= k < |a| ==> (a + [x])[k] == a[k];
  }

  /** Expenses as a percentage of income, 0 without income. */
  function ExpenseRatio(income: real, expenses: real): (r: real)
    ensures income <= 0.0 ==> r == 0.0
    ensures income > 0.0 ==> r * income == expenses * 100.0
  {
    if income > 0.0 then expenses / income * 100.0 else 0.0
  }

  /** Items ranked within [m, top) appended to items ranked within [lo, m)
      stay in order, and the whole ranks within [lo, top). */
  lemma RecommendationOrderAppend(a: seq<Recommendation>, b: seq<Recommendation>, lo: int, m: int, top: int)
    requires RecommendationsInOrder(a) && RecommendationsInOrder(b)
    requires forall k :: 0 <= k < |a| ==> lo <= RecommendationRank(a[k]) < m
    requires forall k :: 0 <= k < |b| ==> m <= RecommendationRank(b[k]) < top
    requires lo <= m <= top
    ensures RecommendationsInOrder(a + b)
  {
    assert forall k :: 0 <= k < |a + b| ==> (a + b)[k] == if k < |a| then a[k] else b[k - |a|];
  }

  /** The income and expense-ratio recommendations, in that order. */
  function IncomeAndRatioRecommendations(income: real, ratio: real): (r: seq<Recommendation>)
    ensures Incorporate in r <==> income > 2000000.0
    ensures ClaimMoreExpenses in r <==> ratio < 20.0
    ensures DocumentExpenses in r <==> ratio > 70.0
    ensures forall k :: 0 <= k < |r| ==> 0 <= RecommendationRank(r[k]) < 3
    ensures RecommendationsInOrder(r)
    ensures |r| <= 2
  {
    var byIncome := if income > 2000000.0 then [Incorporate] else [];
    if ratio < 20.0 then RecommendationSnoc(byIncome, ClaimMoreExpenses); byIncome + [ClaimMoreExpenses]
    else if ratio > 70.0 then RecommendationSnoc(byIncome, DocumentExpenses); byIncome + [DocumentExpenses]
    else byIncome
  }

  /** The GST and investment recommendations, in that order. */
  function GstAndInvestmentRecommendations(income: real, gstCollected: real, incomeTax: real): (r: seq<Recommendation>)
    ensures RegisterForGst in r <==> income > 2000000.0 && gstCollected == 0.0
    ensures TaxSavingInvestments in r <==> incomeTax > 50000.0
    ensures forall k :: 0 <= k < |r| ==> 3 <= RecommendationRank(r[k]) < 5
    ensures RecommendationsInOrder(r)
    ensures |r| <= 2
  {
    var byGst := if income > 2000000.0 && gstCollected == 0.0 then [RegisterForGst] else [];
    if incomeTax > 50000.0 then RecommendationSnoc(byGst, TaxSavingInvestments); byGst + [TaxSavingInvestments]
    else byGst
  }

  /** `generate_recommendations`: each item appears exactly when its
      threshold is crossed, in the source's order and none twice; the low-
      and high-ratio items exclude each other, and GST registration is only
      suggested together with incorporation. */
  function GenerateRecommendations(s: TaxCalculator.TaxSummary): (r: seq<Recommendation>)
    ensures Incorporate in r <==> s.calculation.totalIncome > 2000000.0
    ensures ClaimMoreExpenses in r <==> ExpenseRatio(s.calculation.totalIncome, s.calculation.totalExpenses) < 20.0
    ensures DocumentExpenses in r <==> ExpenseRatio(s.calculation.totalIncome, s.calculation.totalExpenses) > 70.0
    ensures !(ClaimMoreExpenses in r && DocumentExpenses in r)
    ensures RegisterForGst in r <==> s.calculation.totalIncome > 2000000.0 && s.calculation.gstCollected == 0.0
    ensures RegisterForGst in r ==> Incorporate in r
    ensures TaxSavingInvestments in r <==> s.calculation.incomeTax > 50000.0
    ensures RecommendationsInOrder(r)
    ensures |r| <= 4
  {
    var c := s.calculation;
    var first := IncomeAndRatioRecommendations(c.totalIncome, ExpenseRatio(c.totalIncome, c.totalExpenses));
    var later := GstAndInvestmentRecommendations(c.totalIncome, c.gstCollected, c.incomeTax);
    assert forall x :: x in first ==> RecommendationRank(x) < 3;
    assert forall x :: x in later ==> RecommendationRank(x) >= 3;
    RecommendationOrderAppend(first, later, 0, 3, 5);
    first + later
  }

  /** With no income the expense ratio is 0, so an empty store is told only
      that its expense ratio is low. */
  lemma EmptyStoreRecommendations(now: Date, parseDate: string -> Option<Date>)
    ensures GenerateRecommendations(TaxCalculator.GetTaxSummary([], now, parseDate)) == [ClaimMoreExpenses]
  {
  }
}

=== FILE: tax_calculator.dfy ===
/** The freelancer tax engine: progressive bracket tax, the choice between
    presumptive (Section 44ADA) and regular income, the advance-tax schedule,
    the per-category breakdown and the summary and advice built on them. */
module TaxCalculator {
  import opened Wrappers
  import opened Records

  function Min(a: real, b: real): real { if a <= b then a else b }
  function Max(a: real, b: real): real { if a >= b then a else b }

  // ---------------------------------------------------------------------
  // Bracket tax
  // ---------------------------------------------------------------------

  /** The upper end of a bracket; the last bracket has none. */
  datatype Limit = Upto(bound: real) | Unbounded

  /** The rates the table uses. */
  datatype Rate = Nil | Five | Ten | Fifteen | Twenty | TwentyFive | Thirty

  /** The rate as a fraction. */
  function RateValue(r: Rate): real {
    match r
    case Nil => 0.0
    case Five => 0.05
    case Ten => 0.10
    case Fifteen => 0.15
    case Twenty => 0.20
    case TwentyFive => 0.25
    case Thirty => 0.30
  }

  /** `amount * rate`, written per rate so that it stays linear in the
      amount. */
  function Levy(r: Rate, amount: real): real {
    match r
    case Nil => 0.0
    case Five => 0.05 * amount
    case Ten => 0.10 * amount
    case Fifteen => 0.15 * amount
    case Twenty => 0.20 * amount
    case TwentyFive => 0.25 * amount
    case Thirty => 0.30 * amount
  }

  lemma LevyIsProduct(r: Rate, amount: real)
    ensures Levy(r, amount) == RateValue(r) * amount
  {
  }

  const TopRate: real := 0.30

  /** A larger amount is never levied less, and a non-negative amount is
      levied between nothing and the top rate. */
  lemma LevyMonotone(r: Rate, a: real, b: real)
    requires a <= b
    ensures Levy(r, a) <= Levy(r, b)
  {
  }

  lemma LevyBounds(r: Rate, a: real)
    requires 0.0 <= a
    ensures 0.0 <= Levy(r, a) <= TopRate * a
  {
  }

  datatype Bracket = Bracket(limit: Limit, rate: Rate)

  /** The bracket table: 0% up to 250000, then 5, 10, 15, 20, 25 and 30%. */
  const TaxBrackets: seq<Bracket> := [
    Bracket(Upto(250000.0), Nil),
    Bracket(Upto(500000.0), Five),
    Bracket(Upto(750000.0), Ten),
    Bracket(Upto(1000000.0), Fifteen),
    Bracket(Upto(1250000.0), Twenty),
    Bracket(Upto(1500000.0), TwentyFive),
    Bracket(Unbounded, Thirty)
  ]

  /** A table whose limits rise strictly from `lower` and whose last bracket
      is unbounded. */
  predicate WellFormed(lower: real, bs: seq<Bracket>)
    decreases |bs|
  {
    && |bs| > 0
    && match bs[0].limit
       case Unbounded => |bs| == 1
       case Upto(u) => lower < u && WellFormed(u, bs[1..])
  }

  lemma TaxBracketsWellFormed()
    ensures WellFormed(0.0, TaxBrackets)
  {
    assert WellFormed(1500000.0, TaxBrackets[6..]);
    assert WellFormed(1250000.0, TaxBrackets[5..]);
    assert WellFormed(1000000.0, TaxBrackets[4..]);
    assert WellFormed(750000.0, TaxBrackets[3..]);
    assert WellFormed(500000.0, TaxBrackets[2..]);
    assert WellFormed(250000.0, TaxBrackets[1..]);
  }

  /** The bracket loop of the source: walk the table from `previous`, stop
      once the income is used up, tax each slice at its bracket's rate. */
  function BracketLoop(x: real, previous: real, bs: seq<Bracket>): (r: real)
    ensures x <= previous ==> r == 0.0
    ensures WellFormed(previous, bs) ==> 0.0 <= r <= TopRate * Max(0.0, x - previous)
    decreases |bs|
  {
    if |bs| == 0 || x <= previous then 0.0
    else
      match bs[0].limit
      case Unbounded => Levy(bs[0].rate, x - previous)
      case Upto(limit) =>
        var slice := Levy(bs[0].rate, Min(x, limit) - previous);
        if x <= limit then slice else slice + BracketLoop(x, limit, bs[1..])
  }

  /** The part of `x` that lies above `lower` and below the limit. */
  function Portion(x: real, lower: real, limit: Limit): (r: real)
    ensures r >= 0.0
  {
    match limit
    case Unbounded => Max(0.0, x - lower)
    case Upto(u) => Max(0.0, Min(x, u) - lower)
  }

  /** Where the next slab starts. */
  function SlabTop(lower: real, limit: Limit): real {
    match limit
    case Unbounded => lower
    case Upto(u) => u
  }

  /** Reference definition: every bracket taxes the portion of the income
      inside it, with no early exit. */
  function SlabSum(x: real, lower: real, bs: seq<Bracket>): real
    decreases |bs|
  {
    if |bs| == 0 then 0.0
    else Levy(bs[0].rate, Portion(x, lower, bs[0].limit)) + SlabSum(x, SlabTop(lower, bs[0].limit), bs[1..])
  }

  lemma {:induction false} SlabSumZeroBelow(x: real, lower: real, bs: seq<Bracket>)
    requires WellFormed(lower, bs)
    requires x <= lower
    ensures SlabSum(x, lower, bs) == 0.0
    decreases |bs|
  {
    match bs[0].limit
    case Unbounded =>
    case Upto(u) => SlabSumZeroBelow(x, u, bs[1..]);
  }

  /** The loop with its early exits computes the reference sum. */
  lemma {:induction false} LoopMatchesSlabs(x: real, lower: real, bs: seq<Bracket>)
    requires WellFormed(lower, bs)
    ensures BracketLoop(x, lower, bs) == SlabSum(x, lower, bs)
    decreases |bs|
  {
    if x <= lower {
      SlabSumZeroBelow(x, lower, bs);
    } else {
      match bs[0].limit
      case Unbounded =>
      case Upto(u) =>
        if x <= u {
          SlabSumZeroBelow(x, u, bs[1..]);
        } else {
          LoopMatchesSlabs(x, u, bs[1..]);
        }
    }
  }

  lemma PortionMonotone(x: real, y: real, lower: real, limit: Limit)
    requires x <= y
    ensures Portion(x, lower, limit) <= Portion(y, lower, limit)
  {
  }

  /** One step of the reference sum. */
  lemma SlabSumUnfold(x: real, lower: real, bs: seq<Bracket>)
    requires |bs| > 0
    ensures SlabSum(x, lower, bs)
      == Levy(bs[0].rate, Portion(x, lower, bs[0].limit)) + SlabSum(x, SlabTop(lower, bs[0].limit), bs[1..])
  {
  }

  /** What a well-formed table says about its first bracket and the rest. */
  lemma WellFormedStep(lower: real, bs: seq<Bracket>)
    requires WellFormed(lower, bs)
    ensures bs[0].limit.Unbounded? ==> bs[1..] == []
    ensures bs[0].limit.Upto? ==>
      lower < SlabTop(lower, bs[0].limit) && WellFormed(SlabTop(lower, bs[0].limit), bs[1..])
  {
  }

  lemma {:induction false} SlabSumMonotone(x: real, y: real, lower: real, bs: seq<Bracket>)
    requires WellFormed(lower, bs)
    requires x <= y
    ensures SlabSum(x, lower, bs) <= SlabSum(y, lower, bs)
    decreases |bs|
  {
    WellFormedStep(lower, bs);
    var rate, limit, rest := bs[0].rate, bs[0].limit, bs[1..];
    var next := SlabTop(lower, limit);
    PortionMonotone(x, y, lower, limit);
    LevyMonotone(rate, Portion(x, lower, limit), Portion(y, lower, limit));
    SlabSumUnfold(x, lower, bs);
    SlabSumUnfold(y, lower, bs);
    if limit.Upto? {
      SlabSumMonotone(x, y, next, rest);
    }
  }

  /** No slice is taxed above the top rate. */
  lemma {:induction false} SlabSumBounds(x: real, lower: real, bs: seq<Bracket>)
    requires WellFormed(lower, bs)
    ensures 0.0 <= SlabSum(x, lower, bs) <= TopRate * Max(0.0, x - lower)
    decreases |bs|
  {
    WellFormedStep(lower, bs);
    var rate, limit, rest := bs[0].rate, bs[0].limit, bs[1..];
    var next := SlabTop(lower, limit);
    var p := Portion(x, lower, limit);
    LevyBounds(rate, p);
    SlabSumUnfold(x, lower, bs);
    if limit.Upto? {
      SlabSumBounds(x, next, rest);
      assert p + Max(0.0, x - next) == Max(0.0, x - lower);
    }
  }

  /** `calculate_income_tax`: zero for incomes up to 250000 (negative ones
      included), never negative and never above 30% of the income. */
  function IncomeTax(x: real): (r: real)
    ensures r >= 0.0
    ensures x <= 250000.0 ==> r == 0.0
    ensures r <= TopRate * Max(0.0, x)
  {
    if x <= 0.0 then 0.0
    else
      TaxBracketsWellFormed();
      LoopMatchesSlabs(x, 0.0, TaxBrackets);
      SlabSumBounds(x, 0.0, TaxBrackets);
      assert x <= 250000.0 ==> SlabSum(x, 0.0, TaxBrackets) == 0.0 by {
        if x <= 250000.0 {
          SlabSumZeroBelow(x, 250000.0, TaxBrackets[1..]);
        }
      }
      BracketLoop(x, 0.0, TaxBrackets)
  }

  /** More income never means less tax. */
  lemma IncomeTaxMonotone(x: real, y: real)
    requires x <= y
    ensures IncomeTax(x) <= IncomeTax(y)
  {
    if x > 0.0 {
      TaxBracketsWellFormed();
      LoopMatchesSlabs(x, 0.0, TaxBrackets);
      LoopMatchesSlabs(y, 0.0, TaxBrackets);
      SlabSumMonotone(x, y, 0.0, TaxBrackets);
    }
  }

  /** The tax at the bracket limits, read off the table. */
  lemma IncomeTaxAtLimits()
    ensures IncomeTax(250000.0) == 0.0
    ensures IncomeTax(500000.0) == 12500.0
    ensures IncomeTax(750000.0) == 37500.0
    ensures IncomeTax(1000000.0) == 75000.0
    ensures IncomeTax(1250000.0) == 125000.0
    ensures IncomeTax(1500000.0) == 187500.0
    ensures IncomeTax(2000000.0) == 337500.0
  {
  }

  // ---------------------------------------------------------------------
  // Advance-tax schedule
  // ---------------------------------------------------------------------

  /** The four advance-tax instalments of the year. */
  datatype Quarter = June | September | December | March

  /** The due date as the table writes it. */
  function DueText(q: Quarter): string {
    match q
    case June => "2024-06-15"
    case September => "2024-09-15"
    case December => "2024-12-15"
    case March => "2025-03-15"
  }

  /** The instalment's description as the table writes it. */
  function Description(q: Quarter): string {
    match q
    case June => "15% by June 15"
    case September => "45% by September 15"
    case December => "75% by December 15"
    case March => "100% by March 15"
  }

  /** The due date of each instalment, held parsed; its text is `DueText`. */
  function DueDate(q: Quarter): Date {
    match q
    case June => Date(2024, 6, 15)
    case September => Date(2024, 9, 15)
    case December => Date(2024, 12, 15)
    case March => Date(2025, 3, 15)
  }

  /** The cumulative share of the annual tax due by each instalment. */
  function CumulativeRate(q: Quarter): real {
    match q
    case June => 0.15
    case September => 0.45
    case December => 0.75
    case March => 1.00
  }

  /** `annual_tax * cumulative_rate`, written out per quarter so that it
      stays linear in the tax. */
  function CumulativeAmount(q: Quarter, annualTax: real): real {
    match q
    case June => annualTax * 0.15
    case September => annualTax * 0.45
    case December => annualTax * 0.75
    case March => annualTax * 1.00
  }

  lemma CumulativeIsProduct(q: Quarter, annualTax: real)
    ensures CumulativeAmount(q, annualTax) == CumulativeRate(q) * annualTax
  {
  }

  /** The table as the source hard-codes it, for the financial year 2024-25. */
  const AdvanceTaxDeadlines: seq<Quarter> := [June, September, December, March]

  /** One entry of the schedule; `dueDate` and `description` are rendered
      by `DueText` and `Description`. */
  datatype Instalment = Instalment(
    quarter: Quarter,
    dueDate: Date,
    installmentAmount: real,
    cumulativeAmount: real,
    cumulativeRate: real,
    isOverdue: bool)

  /** The schedule loop from a given row on, `previousPaid` being the
      cumulative amount of the row before. */
  function BuildSchedule(annualTax: real, today: Date, qs: seq<Quarter>, previousPaid: real): (r: seq<Instalment>)
    ensures |r| == |qs|
    ensures forall i :: 0 <= i < |qs| ==>
      && r[i].quarter == qs[i]
      && r[i].dueDate == DueDate(qs[i])
      && r[i].cumulativeRate == CumulativeRate(qs[i])
      && r[i].cumulativeAmount == CumulativeAmount(qs[i], annualTax)
      && r[i].isOverdue == Before(DueDate(qs[i]), today)
    ensures |qs| > 0 ==> r[0].installmentAmount == r[0].cumulativeAmount - previousPaid
    ensures forall i :: 0 < i < |qs| ==> r[i].installmentAmount == r[i].cumulativeAmount - r[i - 1].cumulativeAmount
    decreases |qs|
  {
    if |qs| == 0 then []
    else
      var cumulative := CumulativeAmount(qs[0], annualTax);
      var head := Instalment(qs[0], DueDate(qs[0]), cumulative - previousPaid,
                             cumulative, CumulativeRate(qs[0]), Before(DueDate(qs[0]), today));
      [head] + BuildSchedule(annualTax, today, qs[1..], cumulative)
  }

  /** `calculate_advance_tax_schedule`: four cumulative targets of 15, 45, 75
      and 100% of the annual tax; each instalment is the step from the
      previous target, so none is negative when the tax is not. */
  function AdvanceTaxSchedule(annualTax: real, today: Date): (r: seq<Instalment>)
    ensures |r| == 4
    ensures r[0].cumulativeAmount == annualTax * 0.15
    ensures r[1].cumulativeAmount == annualTax * 0.45
    ensures r[2].cumulativeAmount == annualTax * 0.75
    ensures r[3].cumulativeAmount == annualTax
    ensures r[0].installmentAmount == annualTax * 0.15 && r[1].installmentAmount == annualTax * 0.30
    ensures r[2].installmentAmount == annualTax * 0.30 && r[3].installmentAmount == annualTax * 0.25
    ensures annualTax >= 0.0 ==> forall i :: 0 <= i < 4 ==> r[i].installmentAmount >= 0.0
    ensures forall i :: 0 <= i < 4 ==>
      && r[i].quarter == AdvanceTaxDeadlines[i]
      && r[i].dueDate == DueDate(AdvanceTaxDeadlines[i])
      && r[i].cumulativeRate == CumulativeRate(AdvanceTaxDeadlines[i])
    ensures forall i :: 0 <= i < 4 ==> (r[i].isOverdue <==> Before(r[i].dueDate, today))
  {
    var qs := AdvanceTaxDeadlines;
    assert qs[0] == June && qs[1] == September && qs[2] == December && qs[3] == March;
    var r := BuildSchedule(annualTax, today, qs, 0.0);
    assert r[0].cumulativeAmount == annualTax * 0.15 && r[1].cumulativeAmount == annualTax * 0.45;
    assert r[2].cumulativeAmount == annualTax * 0.75 && r[3].cumulativeAmount == annualTax * 1.00;
    assert r[0].installmentAmount == annualTax * 0.15 && r[1].installmentAmount == annualTax * 0.30;
    assert r[2].installmentAmount == annualTax * 0.30 && r[3].installmentAmount == annualTax * 0.25;
    r
  }

  function SumInstalments(s: seq<Instalment>): real {
    if |s| == 0 then 0.0 else s[0].installmentAmount + SumInstalments(s[1..])
  }

  lemma {:induction false} InstalmentsTelescope(annualTax: real, today: Date, qs: seq<Quarter>, previousPaid: real)
    requires |qs| > 0
    ensures SumInstalments(BuildSchedule(annualTax, today, qs, previousPaid)) == CumulativeAmount(qs[|qs| - 1], annualTax) - previousPaid
    decreases |qs|
  {
    var r := BuildSchedule(annualTax, today, qs, previousPaid);
    var cumulative := CumulativeAmount(qs[0], annualTax);
    var rest := BuildSchedule(annualTax, today, qs[1..], cumulative);
    assert r[1..] == rest;
    assert SumInstalments(r) == cumulative - previousPaid + SumInstalments(rest);
    if |qs| > 1 {
      InstalmentsTelescope(annualTax, today, qs[1..], cumulative);
      assert qs[1..][|qs[1..]| - 1] == qs[|qs| - 1];
    }
  }

  /** The instalments add up to exactly the annual tax. */
  lemma InstalmentsSumToAnnualTax(annualTax: real, today: Date)
    ensures SumInstalments(AdvanceTaxSchedule(annualTax, today)) == annualTax
  {
    InstalmentsTelescope(annualTax, today, AdvanceTaxDeadlines, 0.0);
  }

  /** An instalment the advice counts: past its date and positive. */
  predicate Overdue(x: Instalment) {
    x.isOverdue && x.installmentAmount > 0.0
  }

  /** `len([i for i in schedule if i['is_overdue'] and i['installment_amount'] > 0])`:
      some instalment is counted exactly when one is overdue and positive. */
  function OverdueCount(s: seq<Instalment>): (n: nat)
    ensures n <= |s|
    ensures n > 0 <==> exists i :: 0 <= i < |s| && s[i].isOverdue && s[i].installmentAmount > 0.0
  {
    if |s| == 0 then 0
    else
      assert forall i :: 0 <= i < |s| - 1 ==> s[1..][i] == s[i + 1];
      (if Overdue(s[0]) then 1 else 0) + OverdueCount(s[1..])
  }

  /** The count adds up over a concatenated schedule, and one instalment
      counts 1 exactly when it is overdue and positive. */
  lemma {:induction false} OverdueCountAppend(a: seq<Instalment>, b: seq<Instalment>)
    ensures OverdueCount(a + b) == OverdueCount(a) + OverdueCount(b)
    ensures |a| == 1 ==> OverdueCount(a) == (if a[0].isOverdue && a[0].installmentAmount > 0.0 then 1 else 0)
    decreases |a|
  {
    if |a| > 0 {
      assert (a + b)[1..] == a[1..] + b;
      OverdueCountAppend(a[1..], b);
      if |a| == 1 {
        assert a[1..] == [];
      }
    } else {
      assert a + b == b;
    }
  }

  /** The due dates are fixed to the 2024-25 year, so once 15 March 2025 has
      passed every instalment of a positive tax is reported overdue. */
  lemma StaleScheduleAllOverdue(annualTax: real, today: Date)
    requires annualTax > 0.0
    requires Before(Date(2025, 3, 15), today)
    ensures OverdueCount(AdvanceTaxSchedule(annualTax, today)) == 4
  {
    var s := AdvanceTaxSchedule(annualTax, today);
    assert forall i :: 0 <= i < 4 ==> s[i].isOverdue && s[i].installmentAmount > 0.0;
    OverdueCountAppend([s[0]], [s[1]]);
    OverdueCountAppend([s[2]], [s[3]]);
    OverdueCountAppend([s[0], s[1]], [s[2], s[3]]);
    assert s == [s[0], s[1]] + [s[2], s[3]];
  }

  // ---------------------------------------------------------------------
  // Method selection and the tax calculation
  // ---------------------------------------------------------------------

  /** Presumptive taxation deems half of the gross receipts to be income. */
  const PresumptiveRate: real := 0.50

  datatype Method = Presumptive | Regular | NoData

  /** The `calculation_method` text of each method. */
  function MethodLabel(m: Method): string {
    match m
    case Presumptive => "Section 44ADA (Presumptive)"
    case Regular => "Regular (Actual Expenses)"
    case NoData => "No data"
  }

  datatype TaxCalculation = TaxCalculation(
    totalIncome: real,
    totalExpenses: real,
    deductibleExpenses: real,
    taxableIncome: real,
    incomeTax: real,
    calculationMethod: Method,
    usePresumptive: bool,
    advanceTaxSchedule: seq<Instalment>,
    gstCollected: real,
    gstPaid: real,
    gstLiability: real,
    totalTaxLiability: real,
    incomeCount: nat,
    expenseCount: nat,
    savingsFromPresumptive: real)

  /** The selection test as written: the presumptive income is the lower one,
      or the expenses are under half of the income. */
  function UsePresumptive(income: real, expenses: real): (r: bool)
    ensures r <==> income * PresumptiveRate < Max(0.0, income - expenses)
    ensures r <==> income < 0.0 || expenses < income * 0.50
  {
    income * PresumptiveRate < Max(0.0, income - expenses) || expenses < income * 0.50
  }

  /** The taxable income the selection picks: the lower of the presumptive
      and the regular income, a tie going to the regular one. */
  function TaxableIncome(income: real, expenses: real): (t: real)
    ensures UsePresumptive(income, expenses) <==> income * PresumptiveRate < Max(0.0, income - expenses)
    ensures t == Min(income * PresumptiveRate, Max(0.0, income - expenses))
  {
    if UsePresumptive(income, expenses) then income * PresumptiveRate else Max(0.0, income - expenses)
  }

  /** A tax function that never charges a larger income less. */
  ghost predicate Monotone(taxOf: real -> real) {
    forall a: real, b: real :: a <= b ==> taxOf(a) <= taxOf(b)
  }

  lemma IncomeTaxIsMonotone()
    ensures Monotone(IncomeTax)
  {
    forall a: real, b: real | a <= b ensures IncomeTax(a) <= IncomeTax(b) {
      IncomeTaxMonotone(a, b);
    }
  }

  /** The body of `calculate_taxes` once the ledger is summed, for any
      monotone slab tax `taxOf` (the source's is `IncomeTax`): the chosen
      taxable income is the lower of the two candidates (a tie goes to the
      regular method), so the chosen tax never exceeds the other method's,
      and the reported saving is that difference. */
  function CalculateFrom(taxOf: real -> real, income: real, expenses: real, collected: real, paid: real,
                         incomeCount: nat, expenseCount: nat, today: Date): (r: TaxCalculation)
    requires Monotone(taxOf)
    ensures r.totalIncome == income && r.totalExpenses == expenses
    ensures r.gstCollected == collected && r.gstPaid == paid
    ensures r.incomeCount == incomeCount && r.expenseCount == expenseCount
    ensures r.usePresumptive <==> r.totalIncome * PresumptiveRate < Max(0.0, r.totalIncome - r.totalExpenses)
    ensures r.taxableIncome == Min(r.totalIncome * PresumptiveRate, Max(0.0, r.totalIncome - r.totalExpenses))
    ensures r.calculationMethod == (if r.usePresumptive then Presumptive else Regular)
    ensures r.deductibleExpenses == (if r.usePresumptive then r.totalIncome * PresumptiveRate else r.totalExpenses)
    ensures r.incomeTax == taxOf(r.taxableIncome)
    ensures r.incomeTax <= taxOf(r.totalIncome * PresumptiveRate)
    ensures r.incomeTax <= taxOf(Max(0.0, r.totalIncome - r.totalExpenses))
    ensures r.gstLiability >= 0.0 && r.gstLiability >= r.gstCollected - r.gstPaid
    ensures r.gstLiability == 0.0 || r.gstLiability == r.gstCollected - r.gstPaid
    ensures r.totalTaxLiability == r.incomeTax + r.gstLiability
    ensures r.savingsFromPresumptive >= 0.0
    ensures !r.usePresumptive ==> r.savingsFromPresumptive == 0.0
    ensures r.usePresumptive ==>
      r.savingsFromPresumptive == taxOf(Max(0.0, r.totalIncome - r.totalExpenses)) - r.incomeTax
    ensures r.advanceTaxSchedule == AdvanceTaxSchedule(r.incomeTax, today)
  {
    var use := UsePresumptive(income, expenses);
    var taxable := TaxableIncome(income, expenses);
    var deductible := if use then income * PresumptiveRate else expenses;
    var tax := taxOf(taxable);
    var regular := Max(0.0, income - expenses);
    var gst := Max(0.0, collected - paid);
    assert taxable <= income * PresumptiveRate && taxable <= regular;
    TaxCalculation(
      income, expenses, deductible, taxable, tax,
      if use then Presumptive else Regular, use,
      AdvanceTaxSchedule(tax, today),
      collected, paid, gst, tax + gst,
      incomeCount, expenseCount,
      if use then Max(0.0, taxOf(regular) - tax) else 0.0)
  }

  /** `calculate_taxes`: the calculation over the ledger's income and
      expense totals, GST totals and counts, records of other types being
      ignored, with the slab tax of `calculate_income_tax`. */
  function CalculateTaxes(ts: seq<Transaction>, today: Date): (r: TaxCalculation)
    ensures r.totalIncome == Total(ts, "income") && r.totalExpenses == Total(ts, "expense")
    ensures r.gstCollected == GstTotal(ts, "income") && r.gstPaid == GstTotal(ts, "expense")
    ensures r.incomeCount == CountOf(ts, "income") && r.expenseCount == CountOf(ts, "expense")
    ensures r.incomeCount + r.expenseCount <= |ts|
    ensures Monotone(IncomeTax)
    ensures r == CalculateFrom(IncomeTax, r.totalIncome, r.totalExpenses, r.gstCollected, r.gstPaid,
                               r.incomeCount, r.expenseCount, today)
  {
    KindCountsBounded(ts, "income", "expense");
    IncomeTaxIsMonotone();
    CalculateFrom(IncomeTax, Total(ts, "income"), Total(ts, "expense"), GstTotal(ts, "income"), GstTotal(ts, "expense"),
                  CountOf(ts, "income"), CountOf(ts, "expense"), today)
  }

  /** Records whose type is neither 'income' nor 'expense' do not change the
      calculation. */
  lemma OtherKindsIgnored(ts: seq<Transaction>, t: Transaction, today: Date)
    requires t.kind != "income" && t.kind != "expense"
    ensures CalculateTaxes(ts + [t], today) == CalculateTaxes(ts, today)
  {
    LedgerIgnoresOtherKinds(ts, t, "income");
    LedgerIgnoresOtherKinds(ts, t, "expense");
  }

  // ---------------------------------------------------------------------
  // Category breakdown
  // ---------------------------------------------------------------------

  datatype CategoryTotals = CategoryTotals(income: real, expense: real, count: nat, net: real)

  /** One key of the breakdown dict; `BreakdownInFirstSeenOrder` states that
      entries keep the dict's insertion order. */
  datatype CategoryEntry = CategoryEntry(category: string, totals: CategoryTotals)

  /** Number of records in a category. */
  function CategoryCount(ts: seq<Transaction>, c: string): nat {
    if |ts| == 0 then 0 else (if ts[0].category == c then 1 else 0) + CategoryCount(ts[1..], c)
  }

  /** Income of a category: records whose type is 'income'. */
  function CategoryIncome(ts: seq<Transaction>, c: string): real {
    if |ts| == 0 then 0.0
    else (if ts[0].category == c && ts[0].kind == "income" then ts[0].amount else 0.0) + CategoryIncome(ts[1..], c)
  }

  /** Expense of a category: records of every other type. */
  function CategoryExpense(ts: seq<Transaction>, c: string): real {
    if |ts| == 0 then 0.0
    else (if ts[0].category == c && ts[0].kind != "income" then ts[0].amount else 0.0) + CategoryExpense(ts[1..], c)
  }

  lemma {:induction false} CategorySumsSnoc(ts: seq<Transaction>, t: Transaction, c: string)
    ensures CategoryCount(ts + [t], c) == CategoryCount(ts, c) + (if t.category == c then 1 else 0)
    ensures CategoryIncome(ts + [t], c) == CategoryIncome(ts, c) + (if t.category == c && t.kind == "income" then t.amount else 0.0)
    ensures CategoryExpense(ts + [t], c) == CategoryExpense(ts, c) + (if t.category == c && t.kind != "income" then t.amount else 0.0)
    decreases |ts|
  {
    if |ts| == 0 {
      assert ts + [t] == [t];
    } else {
      assert (ts + [t])[1..] == ts[1..] + [t];
      CategorySumsSnoc(ts[1..], t, c);
    }
  }

  /** A category no record carries has nothing in it. */
  lemma {:induction false} CategoryAbsent(ts: seq<Transaction>, c: string)
    requires c !in Categories(ts)
    ensures CategoryCount(ts, c) == 0
    ensures CategoryIncome(ts, c) == 0.0 && CategoryExpense(ts, c) == 0.0
    decreases |ts|
  {
    if |ts| > 0 {
      assert ts[0] in ts;
      assert Categories(ts[1..]) <= Categories(ts) by {
        assert forall u :: u in ts[1..] ==> u in ts;
      }
      CategoryAbsent(ts[1..], c);
    }
  }

  function Categories(ts: seq<Transaction>): set<string> {
    set t | t in ts :: t.category
  }

  function EntryCategories(es: seq<CategoryEntry>): set<string> {
    set e | e in es :: e.category
  }

  function IndexOfCategory(es: seq<CategoryEntry>, c: string): (r: Option<nat>)
    ensures r.None? ==> c !in EntryCategories(es)
    ensures r.Some? ==> r.value < |es| && es[r.value].category == c
  {
    if |es| == 0 then None
    else if es[0].category == c then Some(0)
    else
      match IndexOfCategory(es[1..], c)
      case None =>
        assert forall e :: e in es ==> e == es[0] || e in es[1..];
        None
      case Some(i) => Some(i + 1)
  }

  /** One step of the loop: add a record to its category's totals. */
  function AddToTotals(totals: CategoryTotals, t: Transaction): CategoryTotals {
    var income := totals.income + (if t.kind == "income" then t.amount else 0.0);
    var expense := totals.expense + (if t.kind == "income" then 0.0 else t.amount);
    CategoryTotals(income, expense, totals.count + 1, income - expense)
  }

  predicate DistinctCategories(es: seq<CategoryEntry>) {
    forall i, j :: 0 <= i < j < |es| ==> es[i].category != es[j].category
  }

  /** `es` is the breakdown of `ts`: one entry per category that occurs, each
      holding that category's count, its income, every other type as its
      expense, and net = income - expense. */
  predicate Describes(es: seq<CategoryEntry>, ts: seq<Transaction>) {
    && DistinctCategories(es)
    && EntryCategories(es) == Categories(ts)
    && forall i :: 0 <= i < |es| ==>
      && es[i].totals.count == CategoryCount(ts, es[i].category)
      && es[i].totals.income == CategoryIncome(ts, es[i].category)
      && es[i].totals.expense == CategoryExpense(ts, es[i].category)
      && es[i].totals.net == es[i].totals.income - es[i].totals.expense
  }

  /** One pass of the loop body: add a record to its category's entry, or
      open a new entry at the end. */
  function AddToBreakdown(es: seq<CategoryEntry>, t: Transaction): seq<CategoryEntry> {
    match IndexOfCategory(es, t.category)
    case Some(i) => es[i := CategoryEntry(t.category, AddToTotals(es[i].totals, t))]
    case None => es + [CategoryEntry(t.category, AddToTotals(CategoryTotals(0.0, 0.0, 0, 0.0), t))]
  }

  lemma CategoriesSnoc(init: seq<Transaction>, t: Transaction)
    ensures Categories(init + [t]) == Categories(init) + {t.category}
  {
    assert forall u :: u in init + [t] <==> u in init || u == t;
  }

  /** A record of a category already in the breakdown is added to its entry. */
  lemma AddToExistingEntry(es: seq<CategoryEntry>, init: seq<Transaction>, t: Transaction, i: nat)
    requires Describes(es, init)
    requires i < |es| && es[i].category == t.category
    ensures Describes(es[i := CategoryEntry(t.category, AddToTotals(es[i].totals, t))], init + [t])
  {
    var ts := init + [t];
    var r := es[i := CategoryEntry(t.category, AddToTotals(es[i].totals, t))];
    CategoriesSnoc(init, t);
    assert forall j :: 0 <= j < |r| ==> r[j].category == es[j].category;
    assert EntryCategories(r) == EntryCategories(es) by {
      assert forall e :: e in r ==> e in es || e == r[i];
      forall j | 0 <= j < |es|
        ensures es[j].category in EntryCategories(r)
      {
        assert r[j] in r;
      }
    }
    forall j | 0 <= j < |r|
      ensures r[j].totals.count == CategoryCount(ts, r[j].category)
      ensures r[j].totals.income == CategoryIncome(ts, r[j].category)
      ensures r[j].totals.expense == CategoryExpense(ts, r[j].category)
      ensures r[j].totals.net == r[j].totals.income - r[j].totals.expense
    {
      CategorySumsSnoc(init, t, r[j].category);
      if j != i {
        assert r[j] == es[j] && es[j].category != t.category;
      }
    }
  }

  /** A record of a new category opens an entry at the end. */
  lemma OpenEntry(es: seq<CategoryEntry>, init: seq<Transaction>, t: Transaction)
    requires Describes(es, init)
    requires t.category !in EntryCategories(es)
    ensures Describes(es + [CategoryEntry(t.category, AddToTotals(CategoryTotals(0.0, 0.0, 0, 0.0), t))], init + [t])
  {
    var ts := init + [t];
    var r := es + [CategoryEntry(t.category, AddToTotals(CategoryTotals(0.0, 0.0, 0, 0.0), t))];
    CategoriesSnoc(init, t);
    CategoryAbsent(init, t.category);
    assert EntryCategories(r) == EntryCategories(es) + {t.category} by {
      assert forall e :: e in r <==> e in es || e == r[|es|];
    }
    forall j | 0 <= j < |es| ensures es[j].category != t.category {
      assert es[j] in es;
    }
    forall j | 0 <= j < |r|
      ensures r[j].totals.count == CategoryCount(ts, r[j].category)
      ensures r[j].totals.income == CategoryIncome(ts, r[j].category)
      ensures r[j].totals.expense == CategoryExpense(ts, r[j].category)
      ensures r[j].totals.net == r[j].totals.income - r[j].totals.expense
    {
      CategorySumsSnoc(init, t, r[j].category);
      if j < |es| {
        assert r[j] == es[j];
      }
    }
  }

  lemma AddToBreakdownStep(es: seq<CategoryEntry>, init: seq<Transaction>, t: Transaction)
    requires Describes(es, init)
    ensures Describes(AddToBreakdown(es, t), init + [t])
  {
    match IndexOfCategory(es, t.category)
    case Some(i) => AddToExistingEntry(es, init, t, i);
    case None => OpenEntry(es, init, t);
  }

  /** `get_category_breakdown`, as a left-to-right pass over the records. */
  function CategoryBreakdown(ts: seq<Transaction>): (r: seq<CategoryEntry>)
    ensures Describes(r, ts)
    decreases |ts|
  {
    if |ts| == 0 then []
    else
      var init := ts[..|ts| - 1];
      assert ts == init + [ts[|ts| - 1]];
      var es := CategoryBreakdown(init);
      AddToBreakdownStep(es, init, ts[|ts| - 1]);
      AddToBreakdown(es, ts[|ts| - 1])
  }

  function SumCounts(es: seq<CategoryEntry>): nat {
    if |es| == 0 then 0 else es[0].totals.count + SumCounts(es[1..])
  }

  lemma {:induction false} SumCountsUpdate(es: seq<CategoryEntry>, i: nat, e: CategoryEntry)
    requires i < |es|
    ensures SumCounts(es[i := e]) + es[i].totals.count == SumCounts(es) + e.totals.count
    decreases |es|
  {
    if i > 0 {
      assert es[i := e][1..] == es[1..][i - 1 := e];
      SumCountsUpdate(es[1..], i - 1, e);
    }
  }

  lemma {:induction false} SumCountsAppend(es: seq<CategoryEntry>, e: CategoryEntry)
    ensures SumCounts(es + [e]) == SumCounts(es) + e.totals.count
    decreases |es|
  {
    if |es| == 0 {
      assert es + [e] == [e];
    } else {
      assert (es + [e])[1..] == es[1..] + [e];
      SumCountsAppend(es[1..], e);
    }
  }

  /** Every record is counted in exactly one category. */
  lemma {:induction false} BreakdownCountsAllRecords(ts: seq<Transaction>)
    ensures SumCounts(CategoryBreakdown(ts)) == |ts|
    decreases |ts|
  {
    if |ts| > 0 {
      var init := ts[..|ts| - 1];
      var t := ts[|ts| - 1];
      assert ts == init + [t];
      var es := CategoryBreakdown(init);
      BreakdownCountsAllRecords(init);
      match IndexOfCategory(es, t.category)
      case Some(i) =>
        SumCountsUpdate(es, i, CategoryEntry(t.category, AddToTotals(es[i].totals, t)));
      case None =>
        SumCountsAppend(es, CategoryEntry(t.category, AddToTotals(CategoryTotals(0.0, 0.0, 0, 0.0), t)));
    }
  }

  /** The entries are in the order their categories first occur among the
      records, as a dict keeps its insertion order: before any record of a
      later entry's category, a record of every earlier entry's category has
      already occurred. */
  predicate InFirstSeenOrder(es: seq<CategoryEntry>, ts: seq<Transaction>) {
    forall i, j, k :: 0 <= i < j < |es| && 0 <= k < |ts| && ts[k].category == es[j].category ==>
      es[i].category in Categories(ts[..k])
  }

  /** One pass of the loop keeps the entries in first-seen order. */
  lemma FirstSeenStep(es: seq<CategoryEntry>, init: seq<Transaction>, t: Transaction)
    requires Describes(es, init) && InFirstSeenOrder(es, init)
    ensures InFirstSeenOrder(AddToBreakdown(es, t), init + [t])
  {
    var ts := init + [t];
    var r := AddToBreakdown(es, t);
    AddToBreakdownStep(es, init, t);
    assert |es| <= |r| <= |es| + 1;
    assert forall i :: 0 <= i < |es| ==> r[i].category == es[i].category;
    assert |r| == |es| + 1 ==> r[|es|].category == t.category && t.category !in Categories(init);
    forall i, j, k | 0 <= i < j < |r| && 0 <= k < |ts| && ts[k].category == r[j].category
      ensures r[i].category in Categories(ts[..k])
    {
      if k < |init| {
        assert ts[..k] == init[..k] && ts[k] == init[k];
        if j == |es| {
          assert false;
        }
      } else {
        assert ts[..k] == init;
        assert es[i] in es;
      }
    }
  }

  /** The breakdown lists the categories in the order they first occur. */
  lemma {:induction false} BreakdownInFirstSeenOrder(ts: seq<Transaction>)
    ensures InFirstSeenOrder(CategoryBreakdown(ts), ts)
    decreases |ts|
  {
    if |ts| > 0 {
      var init := ts[..|ts| - 1];
      var t := ts[|ts| - 1];
      assert ts == init + [t];
      BreakdownInFirstSeenOrder(init);
      FirstSeenStep(CategoryBreakdown(init), init, t);
    }
  }

  // ---------------------------------------------------------------------
  // Summary and advice
  // ---------------------------------------------------------------------

  /** The calculation plus the dashboard statistics `get_tax_summary` adds. */
  datatype TaxSummary = TaxSummary(
    calculation: TaxCalculation,
    currentMonthIncome: real,
    currentMonthExpenses: real,
    categoryBreakdown: seq<CategoryEntry>,
    effectiveTaxRate: real,
    netProfit: real,
    profitMargin: real)

  /** `get_empty_tax_summary`: every figure zero, no schedule, no categories. */
  function EmptySummary(): (r: TaxSummary)
    ensures r.calculation.calculationMethod == NoData && !r.calculation.usePresumptive
    ensures r.calculation.advanceTaxSchedule == [] && r.categoryBreakdown == []
    ensures r.calculation.totalIncome == 0.0 && r.calculation.totalExpenses == 0.0
    ensures r.calculation.deductibleExpenses == 0.0 && r.calculation.taxableIncome == 0.0
    ensures r.calculation.incomeTax == 0.0 && r.calculation.totalTaxLiability == 0.0
    ensures r.calculation.gstCollected == 0.0 && r.calculation.gstPaid == 0.0 && r.calculation.gstLiability == 0.0
    ensures r.calculation.incomeCount == 0 && r.calculation.expenseCount == 0
    ensures r.calculation.savingsFromPresumptive == 0.0
    ensures r.currentMonthIncome == 0.0 && r.currentMonthExpenses == 0.0
    ensures r.effectiveTaxRate == 0.0 && r.netProfit == 0.0 && r.profitMargin == 0.0
  {
    TaxSummary(
      TaxCalculation(0.0, 0.0, 0.0, 0.0, 0.0, NoData, false, [], 0.0, 0.0, 0.0, 0.0, 0, 0, 0.0),
      0.0, 0.0, [], 0.0, 0.0, 0.0)
  }

  /** The empty summary's figures are those the calculation gives for an
      empty ledger; only the method label and the schedule differ. */
  lemma EmptySummaryMatchesEmptyLedger(now: Date)
    ensures var c := CalculateTaxes([], now);
      EmptySummary().calculation == c.(calculationMethod := NoData, advanceTaxSchedule := [])
    ensures CalculateTaxes([], now).calculationMethod == Regular
  {
  }

  /** `sum(amount for t in ts if t['type'] == kind and is_current_month(t['date']))`:
      the kind's total over the records of the current month. */
  function CurrentMonthTotal(ts: seq<Transaction>, kind: string, now: Date, parseDate: string -> Option<Date>): (r: real)
    ensures r == Total(MonthRecords(ts, now.year, now.month, parseDate), kind)
  {
    if |ts| == 0 then 0.0
    else
      (if ts[0].kind == kind && InMonth(ts[0].date, now.year, now.month, parseDate) then ts[0].amount else 0.0)
      + CurrentMonthTotal(ts[1..], kind, now, parseDate)
  }

  /** `income_tax / taxable_income * 100`, or 0 when nothing is taxable; a
      tax within the top rate gives a rate within [0, 30] percent. */
  function EffectiveTaxRate(tax: real, taxable: real): (r: real)
    ensures taxable <= 0.0 ==> r == 0.0
    ensures taxable > 0.0 ==> r * taxable == tax * 100.0
    ensures 0.0 <= tax <= TopRate * Max(0.0, taxable) ==> 0.0 <= r <= 30.0
  {
    if taxable > 0.0 then
      assert 0.0 <= tax <= TopRate * taxable ==> tax / taxable <= TopRate;
      tax / taxable * 100.0
    else 0.0
  }

  /** `net / income * 100`, or 0 without income. */
  function ProfitMargin(net: real, income: real): (r: real)
    ensures income <= 0.0 ==> r == 0.0
    ensures income > 0.0 ==> r * income == net * 100.0
  {
    if income > 0.0 then net / income * 100.0 else 0.0
  }

  /** `get_tax_summary` with the clock passed in: the empty summary for no
      records, otherwise the calculation plus statistics. The effective rate
      stays within [0, 30] percent because the bracket tax never exceeds 30%
      of the taxable income. */
  function GetTaxSummary(ts: seq<Transaction>, now: Date, parseDate: string -> Option<Date>): (r: TaxSummary)
    ensures ts == [] ==> r == EmptySummary()
    ensures ts != [] ==> r.calculation == CalculateTaxes(ts, now)
    ensures ts != [] ==> Describes(r.categoryBreakdown, ts)
    ensures r.currentMonthIncome == Total(MonthRecords(ts, now.year, now.month, parseDate), "income")
    ensures r.currentMonthExpenses == Total(MonthRecords(ts, now.year, now.month, parseDate), "expense")
    ensures 0.0 <= r.effectiveTaxRate <= 30.0
    ensures r.calculation.taxableIncome <= 0.0 ==> r.effectiveTaxRate == 0.0
    ensures r.effectiveTaxRate == EffectiveTaxRate(r.calculation.incomeTax, r.calculation.taxableIncome)
    ensures r.netProfit == r.calculation.totalIncome - r.calculation.deductibleExpenses
    ensures r.profitMargin == ProfitMargin(r.netProfit, r.calculation.totalIncome)
  {
    if |ts| == 0 then EmptySummary()
    else
      var c := CalculateTaxes(ts, now);
      var net := c.totalIncome - c.deductibleExpenses;
      TaxSummary(
        c,
        CurrentMonthTotal(ts, "income", now, parseDate),
        CurrentMonthTotal(ts, "expense", now, parseDate),
        CategoryBreakdown(ts),
        EffectiveTaxRate(c.incomeTax, c.taxableIncome),
        net,
        ProfitMargin(net, c.totalIncome))
  }

  /** The items of `get_tax_advice`; the currency text of the GST item is
      formatting and is left as the amount. */
  datatype Advice =
    | UsingPresumptive
    | ConsiderRegular
    | FileGst(liability: real)
    | PayOverdue(count: nat)
    | PlanForHighIncome

  /** The position of each item in the order `get_tax_advice` appends them. */
  function AdviceRank(a: Advice): int {
    match a
    case UsingPresumptive => 0
    case ConsiderRegular => 1
    case FileGst(_) => 2
    case PayOverdue(_) => 3
    case PlanForHighIncome => 4
  }

  /** Every item ranks below every later one: the items are in the order
      the source appends them, and none appears twice. */
  predicate AdviceInOrder(r: seq<Advice>) {
    forall i, j :: 0 <= i < j < |r| ==> AdviceRank(r[i]) < AdviceRank(r[j])
  }

  /** An item `get_tax_advice` can give for this GST liability and this
      number of overdue instalments: the parameters are the actual ones. */
  predicate Givable(a: Advice, gstLiability: real, overdue: nat) {
    a == UsingPresumptive || a == ConsiderRegular || a == FileGst(gstLiability)
    || a == PayOverdue(overdue) || a == PlanForHighIncome
  }

  /** The advice about the method: present only for the presumptive method,
      and the suggestion to compare with the regular one follows it. */
  function MethodAdvice(c: TaxCalculation): (r: seq<Advice>)
    ensures UsingPresumptive in r <==> c.usePresumptive
    ensures ConsiderRegular in r <==> c.usePresumptive && c.totalExpenses > c.totalIncome * 0.50
    ensures forall a :: a in r ==> a.UsingPresumptive? || a.ConsiderRegular?
    ensures AdviceInOrder(r)
    ensures ConsiderRegular in r ==> r == [UsingPresumptive, ConsiderRegular]
    ensures |r| <= 2
  {
    if c.usePresumptive then
      if c.totalExpenses > c.totalIncome * 0.50 then [UsingPresumptive, ConsiderRegular] else [UsingPresumptive]
    else []
  }

  /** An item that is given exactly when its condition holds. */
  function ItemIf(b: bool, a: Advice): (r: seq<Advice>)
    ensures forall x :: x in r <==> b && x == a
    ensures |r| <= 1
  {
    if b then [a] else []
  }

  /** Items ranked within [m, top) appended to items ranked within [lo, m)
      stay in order, and the whole ranks within [lo, top). */
  lemma AdviceOrderAppend(a: seq<Advice>, b: seq<Advice>, lo: int, m: int, top: int)
    requires AdviceInOrder(a) && AdviceInOrder(b)
    requires forall k :: 0 <= k < |a| ==> lo <= AdviceRank(a[k]) < m
    requires forall k :: 0 <= k < |b| ==> m <= AdviceRank(b[k]) < top
    requires lo <= m <= top
    ensures AdviceInOrder(a + b)
    ensures forall k :: 0 <= k < |a + b| ==> lo <= AdviceRank((a + b)[k]) < top
  {
    assert forall k :: 0 <= k < |a + b| ==> (a + b)[k] == if k < |a| then a[k] else b[k - |a|];
    forall i, j | 0 <= i < j < |a + b|
      ensures AdviceRank((a + b)[i]) < AdviceRank((a + b)[j])
    {
      if j < |a| {
        assert (a + b)[i] == a[i] && (a + b)[j] == a[j];
      } else if i < |a| {
        assert (a + b)[i] == a[i] && (a + b)[j] == b[j - |a|];
      } else {
        assert (a + b)[i] == b[i - |a|] && (a + b)[j] == b[j - |a|];
      }
    }
  }

  /** Appending an item that ranks above every item present keeps the order. */
  lemma AdviceSnoc(a: seq<Advice>, x: Advice)
    requires AdviceInOrder(a)
    requires forall k :: 0 <= k < |a| ==> AdviceRank(a[k]) < AdviceRank(x)
    ensures AdviceInOrder(a + [x])
  {
    assert forall k :: 0 <= k < |a| ==> (a + [x])[k] == a[k];
  }

  /** The GST and overdue items, each exactly when its condition holds, in
      that order. */
  function GstAndOverdueAdvice(gstLiability: real, overdue: nat): (r: seq<Advice>)
    ensures FileGst(gstLiability) in r <==> gstLiability > 0.0
    ensures PayOverdue(overdue) in r <==> overdue > 0
    ensures forall a :: a in r ==> a == FileGst(gstLiability) || a == PayOverdue(overdue)
    ensures forall k :: 0 <= k < |r| ==> 2 <= AdviceRank(r[k]) < 4
    ensures AdviceInOrder(r)
    ensures |r| <= 2
  {
    var withGst := if gstLiability > 0.0 then [FileGst(gstLiability)] else [];
    if overdue > 0 then AdviceSnoc(withGst, PayOverdue(overdue)); withGst + [PayOverdue(overdue)]
    else withGst
  }

  /** The GST, overdue and high-income items, each exactly when its
      condition holds, in that order. */
  function LaterAdvice(gstLiability: real, overdue: nat, income: real): (r: seq<Advice>)
    ensures FileGst(gstLiability) in r <==> gstLiability > 0.0
    ensures PayOverdue(overdue) in r <==> overdue > 0
    ensures PlanForHighIncome in r <==> income > 1000000.0
    ensures forall a :: a in r ==> a == FileGst(gstLiability) || a == PayOverdue(overdue) || a == PlanForHighIncome
    ensures forall k :: 0 <= k < |r| ==> 2 <= AdviceRank(r[k]) < 5
    ensures AdviceInOrder(r)
    ensures |r| <= 3
  {
    var withPay := GstAndOverdueAdvice(gstLiability, overdue);
    if income > 1000000.0 then AdviceSnoc(withPay, PlanForHighIncome); withPay + [PlanForHighIncome]
    else withPay
  }

  /** The method items followed by the later items: each item is present
      exactly when its condition holds, and the method items stay in front. */
  lemma JoinAdvice(c: TaxCalculation, overdue: nat)
    ensures var r := MethodAdvice(c) + LaterAdvice(c.gstLiability, overdue, c.totalIncome);
      && (UsingPresumptive in r <==> c.usePresumptive)
      && (ConsiderRegular in r <==> c.usePresumptive && c.totalExpenses > c.totalIncome * 0.50)
      && (FileGst(c.gstLiability) in r <==> c.gstLiability > 0.0)
      && (PayOverdue(overdue) in r <==> overdue > 0)
      && (PlanForHighIncome in r <==> c.totalIncome > 1000000.0)
      && (ConsiderRegular in r ==> r[0] == UsingPresumptive && r[1] == ConsiderRegular)
  {
    var rest := LaterAdvice(c.gstLiability, overdue, c.totalIncome);
    assert UsingPresumptive !in rest && ConsiderRegular !in rest;
  }

  /** Every item of the joined advice is one the source can give, with the
      actual GST liability and the actual overdue count. */
  lemma JoinedAdviceGivable(c: TaxCalculation, overdue: nat)
    ensures forall a :: a in MethodAdvice(c) + LaterAdvice(c.gstLiability, overdue, c.totalIncome) ==>
      Givable(a, c.gstLiability, overdue)
  {
    var choice := MethodAdvice(c);
    var rest := LaterAdvice(c.gstLiability, overdue, c.totalIncome);
    assert forall a :: a in choice + rest ==> a in choice || a in rest;
  }

  /** The joined advice keeps the source's order, so no item repeats. */
  lemma JoinedAdviceInOrder(c: TaxCalculation, overdue: nat)
    ensures AdviceInOrder(MethodAdvice(c) + LaterAdvice(c.gstLiability, overdue, c.totalIncome))
    ensures |MethodAdvice(c) + LaterAdvice(c.gstLiability, overdue, c.totalIncome)| <= 5
  {
    var choice := MethodAdvice(c);
    var rest := LaterAdvice(c.gstLiability, overdue, c.totalIncome);
    assert forall a :: a in choice ==> AdviceRank(a) < 2;
    AdviceOrderAppend(choice, rest, 0, 2, 5);
  }

  /** `get_tax_advice`: each item appears exactly when its condition holds,
      in the source's order and none twice. */
  function GetTaxAdvice(s: TaxSummary): (r: seq<Advice>)
    ensures UsingPresumptive in r <==> s.calculation.usePresumptive
    ensures ConsiderRegular in r <==> s.calculation.usePresumptive && s.calculation.totalExpenses > s.calculation.totalIncome * 0.50
    ensures FileGst(s.calculation.gstLiability) in r <==> s.calculation.gstLiability > 0.0
    ensures PayOverdue(OverdueCount(s.calculation.advanceTaxSchedule)) in r <==> OverdueCount(s.calculation.advanceTaxSchedule) > 0
    ensures PlanForHighIncome in r <==> s.calculation.totalIncome > 1000000.0
    ensures ConsiderRegular in r ==> r[0] == UsingPresumptive && r[1] == ConsiderRegular
    ensures forall a :: a in r ==> Givable(a, s.calculation.gstLiability, OverdueCount(s.calculation.advanceTaxSchedule))
    ensures AdviceInOrder(r)
    ensures |r| <= 5
  {
    var c := s.calculation;
    var overdue := OverdueCount(c.advanceTaxSchedule);
    JoinAdvice(c, overdue);
    JoinedAdviceGivable(c, overdue);
    JoinedAdviceInOrder(c, overdue);
    MethodAdvice(c) + LaterAdvice(c.gstLiability, overdue, c.totalIncome)
  }

  /** With non-negative amounts the presumptive method is only chosen when the
      expenses are under half of the income, so the advice to switch to the
      regular method can never be given. */
  lemma SwitchAdviceNeverGiven(ts: seq<Transaction>, now: Date, parseDate: string -> Option<Date>)
    requires NonNegativeAmounts(ts)
    ensures ConsiderRegular !in GetTaxAdvice(GetTaxSummary(ts, now, parseDate))
  {
    var c := GetTaxSummary(ts, now, parseDate).calculation;
    if ts != [] {
      TotalNonNegative(ts, "income");
      TotalNonNegative(ts, "expense");
      assert c.totalIncome >= 0.0 && c.totalExpenses >= 0.0;
      assert c.usePresumptive ==> c.totalExpenses < c.totalIncome * 0.50;
    }
    assert !(c.usePresumptive && c.totalExpenses > c.totalIncome * 0.50);
  }
}

=== FILE: text.dfy ===
/** The few Python `str` operations the application relies on, over `string`
    (a sequence of Unicode scalar values). */
module Text {

  /** Python's `str.isspace()` for one character. */
  predicate IsSpace(c: char) {
    || c == ' '
    || ('\t' <= c <= '\r')
    || ('\U{1C}' <= c <= '\U{1F}')
    || c == '\U{85}' || c == '\U{A0}' || c == '\U{1680}'
    || ('\U{2000}' <= c <= '\U{200A}')
    || c == '\U{2028}' || c == '\U{2029}' || c == '\U{202F}' || c == '\U{205F}' || c == '\U{3000}'
  }

  predicate AllSpace(s: string) {
    forall k :: 0 <= k < |s| ==> IsSpace(s[k])
  }

  /** The number of whitespace characters `s` starts with. */
  function LeadingSpace(s: string): (n: nat)
    ensures n <= |s|
    ensures AllSpace(s[..n])
    ensures n < |s| ==> !IsSpace(s[n])
  {
    if |s| == 0 || !IsSpace(s[0]) then 0 else 1 + LeadingSpace(s[1..])
  }

  /** The number of whitespace characters `s` ends with. */
  function TrailingSpace(s: string): (n: nat)
    ensures n <= |s|
    ensures AllSpace(s[|s| - n..])
    ensures n < |s| ==> !IsSpace(s[|s| - n - 1])
  {
    if |s| == 0 || !IsSpace(s[|s| - 1]) then 0 else 1 + TrailingSpace(s[..|s| - 1])
  }

  /** Python's `s.strip()`: `s` without its leading and trailing whitespace. */
  function Strip(s: string): (r: string)
    ensures r == [] || (!IsSpace(r[0]) && !IsSpace(r[|r| - 1]))
    ensures LeadingSpace(s) + |r| <= |s|
    ensures r == s[LeadingSpace(s)..LeadingSpace(s) + |r|]
    ensures AllSpace(s[LeadingSpace(s) + |r|..])
  {
    var rest := s[LeadingSpace(s)..];
    rest[..|rest| - TrailingSpace(rest)]
  }

  /** Python's slice `s[:n]`. */
  function Take(s: string, n: nat): (r: string)
    ensures |r| <= n && |r| <= |s|
    ensures r == s[..|r|]
    ensures |s| <= n ==> r == s
    ensures |s| > n ==> |r| == n
  {
    if |s| <= n then s else s[..n]
  }

  predicate IsAsciiUpper(c: char) {
    'A' <= c <= 'Z'
  }

  predicate IsAsciiLower(c: char) {
    'a' <= c <= 'z'
  }

  function LowerChar(c: char): (r: char)
    ensures !IsAsciiUpper(r)
  {
    if IsAsciiUpper(c) then (c as int + 32) as char else c
  }

  function UpperChar(c: char): (r: char)
    ensures !IsAsciiLower(r)
  {
    if IsAsciiLower(c) then (c as int - 32) as char else c
  }

  /** Python's `str.lower()` on the ASCII letters. */
  function Lower(s: string): (r: string)
    ensures |r| == |s|
    ensures forall k :: 0 <= k < |s| ==> r[k] == LowerChar(s[k])
  {
    if |s| == 0 then [] else [LowerChar(s[0])] + Lower(s[1..])
  }

  /** Python's `str.upper()` on the ASCII letters. */
  function Upper(s: string): (r: string)
    ensures |r| == |s|
    ensures forall k :: 0 <= k < |s| ==> r[k] == UpperChar(s[k])
  {
    if |s| == 0 then [] else [UpperChar(s[0])] + Upper(s[1..])
  }

  /** Lower-casing twice is lower-casing once. */
  lemma LowerIdempotent(s: string)
    ensures Lower(Lower(s)) == Lower(s)
  {
    assert forall k :: 0 <= k < |s| ==> LowerChar(LowerChar(s[k])) == LowerChar(s[k]);
  }

  predicate StartsWith(s: string, w: string) {
    |w| <= |s| && s[..|w|] == w
  }

  /** Python's `w in s` for strings: `w` occurs somewhere in `s`. */
  predicate Contains(s: string, w: string)
    decreases |s|
  {
    StartsWith(s, w) || (|s| > 0 && Contains(s[1..], w))
  }

  /** Python's `s.replace(pat, '')`: occurrences are removed left to right
      without overlap, so a match formed by the removal itself survives. */
  function RemoveAll(s: string, pat: string): (r: string)
    requires pat != []
    ensures |r| <= |s|
    ensures |pat| == 1 ==> pat[0] !in r
    ensures !Contains(s, pat) ==> r == s
    decreases |s|
  {
    if |s| == 0 then []
    else if StartsWith(s, pat) then RemoveAll(s[|pat|..], pat)
    else [s[0]] + RemoveAll(s[1..], pat)
  }

  /** Removal only ever deletes characters: every character of the result
      occurs in the input at least as often. */
  lemma {:induction false} RemoveAllAddsNothing(s: string, pat: string)
    requires pat != []
    ensures multiset(RemoveAll(s, pat)) <= multiset(s)
    decreases |s|
  {
    if |s| > 0 {
      if StartsWith(s, pat) {
        RemoveAllAddsNothing(s[|pat|..], pat);
        assert s == s[..|pat|] + s[|pat|..];
        assert multiset(s) == multiset(s[..|pat|]) + multiset(s[|pat|..]);
      } else {
        RemoveAllAddsNothing(s[1..], pat);
        assert s == [s[0]] + s[1..];
      }
    }
  }

  lemma ConcatAssociative<T>(x: seq<T>, y: seq<T>, z: seq<T>)
    ensures x + (y + z) == (x + y) + z
  {
  }

  /** No occurrence of `pat` starts inside the last `|pat| - 1` characters
      of `a` when `b` follows. */
  predicate NoStraddle(a: string, b: string, pat: string) {
    forall i :: 0 <= i < |a| && |a| - i < |pat| ==> !StartsWith((a + b)[i..], pat)
  }

  /** Text without the pattern's first character is left as it is. */
  lemma {:induction false} RemoveAllAbsent(s: string, pat: string)
    requires pat != [] && pat[0] !in s
    ensures RemoveAll(s, pat) == s
    decreases |s|
  {
    if |s| > 0 {
      assert s[1..] == s[1..] && forall c :: c in s[1..] ==> c in s;
      RemoveAllAbsent(s[1..], pat);
      assert !StartsWith(s, pat) by {
        if |pat| <= |s| {
          assert s[..|pat|][0] == s[0];
        }
      }
      assert s == [s[0]] + s[1..];
    }
  }

  /** A character that starts no occurrence is kept and the scan moves on. */
  lemma RemoveAllKeeps(c: char, t: string, pat: string)
    requires pat != [] && !StartsWith([c] + t, pat)
    ensures RemoveAll([c] + t, pat) == [c] + RemoveAll(t, pat)
  {
    assert ([c] + t)[0] == c && ([c] + t)[1..] == t;
  }

  /** A leading occurrence is removed and the scan goes on after it. */
  lemma RemoveAllLeading(pat: string, rest: string)
    requires pat != []
    ensures RemoveAll(pat + rest, pat) == RemoveAll(rest, pat)
  {
    assert (pat + rest)[..|pat|] == pat && (pat + rest)[|pat|..] == rest;
  }

  /** Dropping a prefix of `a` keeps the condition. */
  lemma NoStraddleSuffix(a: string, b: string, pat: string, n: nat)
    requires n <= |a| && NoStraddle(a, b, pat)
    ensures NoStraddle(a[n..], b, pat)
  {
    forall i | 0 <= i < |a[n..]| && |a[n..]| - i < |pat| ensures !StartsWith((a[n..] + b)[i..], pat) {
      assert (a[n..] + b)[i..] == (a + b)[i + n..];
    }
  }

  /** The pattern alone is removed completely. */
  lemma RemoveAllSelf(pat: string)
    requires pat != []
    ensures RemoveAll(pat, pat) == []
  {
    assert StartsWith(pat, pat) && pat[|pat|..] == [];
  }

  /** Removal works piece by piece: a concatenation no occurrence straddles
      is cleaned part by part. */
  lemma {:induction false} RemoveAllAppend(a: string, b: string, pat: string)
    requires pat != []
    requires NoStraddle(a, b, pat)
    ensures RemoveAll(a + b, pat) == RemoveAll(a, pat) + RemoveAll(b, pat)
    decreases |a|
  {
    var ab := a + b;
    if |a| == 0 {
      assert ab == b;
    } else if StartsWith(a, pat) {
      assert ab[..|pat|] == a[..|pat|] && ab[|pat|..] == a[|pat|..] + b;
      NoStraddleSuffix(a, b, pat, |pat|);
      RemoveAllAppend(a[|pat|..], b, pat);
    } else {
      assert !StartsWith(ab, pat) by {
        if |pat| <= |a| {
          assert ab[..|pat|] == a[..|pat|];
        } else {
          assert ab[0..] == ab;
        }
      }
      assert ab[0] == a[0] && ab[1..] == a[1..] + b;
      NoStraddleSuffix(a, b, pat, 1);
      RemoveAllAppend(a[1..], b, pat);
      assert [a[0]] + (RemoveAll(a[1..], pat) + RemoveAll(b, pat))
          == ([a[0]] + RemoveAll(a[1..], pat)) + RemoveAll(b, pat);
    }
  }

  /** Python's `<=` on strings: lexicographic by code point. */
  predicate LexLe(a: string, b: string)
    decreases |a|
  {
    |a| == 0 || (|b| > 0 && (a[0] < b[0] || (a[0] == b[0] && LexLe(a[1..], b[1..]))))
  }

  lemma {:induction false} LexLeTotal(a: string, b: string)
    ensures LexLe(a, b) || LexLe(b, a)
    decreases |a|
  {
    if |a| > 0 && |b| > 0 && a[0] == b[0] {
      LexLeTotal(a[1..], b[1..]);
    }
  }

  lemma {:induction false} LexLeTransitive(a: string, b: string, c: string)
    requires LexLe(a, b) && LexLe(b, c)
    ensures LexLe(a, c)
    decreases |a|
  {
    if |a| > 0 && a[0] == b[0] && b[0] == c[0] {
      LexLeTransitive(a[1..], b[1..], c[1..]);
    }
  }

  lemma {:induction false} LexLeAntisymmetric(a: string, b: string)
    requires LexLe(a, b) && LexLe(b, a)
    ensures a == b
    decreases |a|
  {
    if |a| > 0 {
      LexLeAntisymmetric(a[1..], b[1..]);
      assert a == [a[0]] + a[1..] && b == [b[0]] + b[1..];
    }
  }

  /** The text after the last `c` in `s`, or all of `s` when `c` does not
      occur (Python's `s.rsplit(c, 1)[-1]`, and `os.path.basename` for '/'). */
  function AfterLast(s: string, c: char): (r: string)
    ensures c !in r
    ensures |r| <= |s| && r == s[|s| - |r|..]
    ensures forall k :: |s| - |r| <= k < |s| ==> s[k] != c
    ensures c in s ==> |r| < |s| && s[|s| - |r| - 1] == c
    ensures c !in s ==> r == s
    decreases |s|
  {
    if |s| == 0 then []
    else if s[|s| - 1] == c then []
    else
      var init := s[..|s| - 1];
      assert s == init + [s[|s| - 1]];
      AfterLast(init, c) + [s[|s| - 1]]
  }

  /** A text containing `w + v` contains `w`. */
  lemma {:induction false} ContainsPrefix(s: string, w: string, v: string)
    requires Contains(s, w + v)
    ensures Contains(s, w)
    decreases |s|
  {
    if StartsWith(s, w + v) {
      assert s[..|w|] == (w + v)[..|w|] == w;
    } else {
      ContainsPrefix(s[1..], w, v);
    }
  }

  /** A leading whitespace character makes no difference to the strip. */
  lemma StripLeadingSpace(c: char, t: string)
    requires IsSpace(c)
    ensures Strip([c] + t) == Strip(t)
  {
    var s := [c] + t;
    assert s[1..] == t;
    assert LeadingSpace(s) == 1 + LeadingSpace(t);
    assert s[LeadingSpace(s)..] == t[LeadingSpace(t)..];
  }

  /** A string without surrounding whitespace is its own strip. */
  lemma StripKeepsTrimmed(s: string)
    requires s == [] || (!IsSpace(s[0]) && !IsSpace(s[|s| - 1]))
    ensures Strip(s) == s
  {
  }
}

=== FILE: wrappers.dfy ===
/** Python's `None`-or-value, used for optional record fields and for
    operations that can fail (an exception in the source becomes `None`). */
module Wrappers {

  datatype Option<+T> = None | Some(value: T) {

    predicate IsFailure() {
      None?
    }

    function PropagateFailure<U>(): Option<U>
      requires None?
    {
      None
    }

    function Extract(): T
      requires Some?
    {
      value
    }

    /** The value, or `default` when absent (Python's `d.get(key, default)`). */
    function GetOr(default: T): T {
      match this
      case Some(v) => v
      case None => default
    }
  }
}
